=== FILE: README.md ===
# Turing-machine editor model

A Dafny model of the machine-definition editor in the ESP32 Turing Machine
web front end (`data/script.js`). The editor keeps one configuration record:
input alphabet, tape alphabet, states, initial state, final states and
transitions. Next to it sit a counter that names new states `q<n>` and a
flag recording that the transition table has been generated. The model
covers every handler that changes this record, and the two tables derived
from it:

- `Alphabet`: checking the alphabet fields (`isValidAlphabet`). It also
  holds the data half of "generate table": trimming, the three validation
  errors, de-duplication, and building the tape alphabet
  `input ++ auxiliary ++ [^, _]`. It also recovers the auxiliary symbols
  when a saved machine is loaded.
- `Machine`: the record types, add state, delete last state, the cell edit
  (`updateTransition`), generate table on the editor, and load.
- `Table`: the caret-first display order of the tape alphabet. It also
  holds the rows of the editable transition table, one per
  (non-final state, symbol).
- `Matrix`: the read-only matrix view (`updateVisualization`). It has a
  header, one row per state, and a text per cell.
- `TapeInput`: the filter run on the tape-input field (`validateTapeInput`).
- `Session`: sequences of add, delete, generate and cell-edit actions from
  the record the page starts with, and the invariant every editor reached
  this way keeps. It also proves the undo properties built on that
  invariant, and the load properties for records such an editor saves.
- `Seqs`, `StateNames`, `Wrappers`: sequence helpers that model
  `[...new Set(s)]`, `indexOf` and `filter`; decimal rendering of the
  counter in `q${n}`; and `Option`/`Result`.

Everything is a pure function over immutable datatypes. Transitions are a
map keyed by (state, read symbol). Once the table has been generated, the
page rebuilds both tables after generate, add, delete and load, and redraws
the matrix after each cell edit. Before the first generate, add and delete
rebuild nothing and no table is shown. The model computes both tables as
functions of the record. As in
the code, a triple is created only when a cell of a row is first edited.
Deleting a state never removes its triples, so a state re-created under the
same name shows its old transitions again (`Session.StaleTransitionsResurface`).

## Model

| member | source | states |
|---|---|---|
| Alphabet.IsValidAlphabet | data/script.js:66-68 | the check accepts exactly the non-empty strings whose characters are all ASCII letters or digits |
| Alphabet.Trim | data/script.js:183-184 | `trim` returns the contiguous slice of the field left after cutting a run of JavaScript whitespace from each end: no whitespace at either end of the result, every other character kept, an already trimmed string left alone |
| Alphabet.TrimIdempotent | data/script.js:183-184 | trimming a trimmed field changes nothing |
| Alphabet.Normalize | data/script.js:182-226 | each of the three validation errors is reported exactly when its condition holds (empty trimmed input, invalid input, non-empty invalid auxiliary field); success exactly when input is valid and auxiliary field empty or valid; on success the input alphabet is the de-duplicated trimmed input and the tape alphabet has no duplicates |
| Alphabet.NormalizeShape | data/script.js:215-226 | after a successful generate the input alphabet is a prefix of the tape alphabet, which has no duplicates, ends with `^` then `_`, holds each of them exactly once, contains exactly the characters of both fields plus `^` and `_`, and the symbols recovered on load are the de-duplicated auxiliary symbols not in the input alphabet |
| Alphabet.AuxiliaryOf | data/script.js:635 | the recovered auxiliary symbols are exactly the tape symbols that are neither input symbols nor `^` nor `_` |
| Alphabet.AuxiliaryOfSubseq | data/script.js:635 | the recovered symbols are a subsequence of the tape alphabet: they keep its order |
| Alphabet.AuxiliaryOfConcat | data/script.js:635 | recovering from two pieces of a tape alphabet and joining the results equals recovering from the whole, so the order and the copies of the kept symbols are those of the tape alphabet |
| Alphabet.AuxiliaryOfSingle | data/script.js:635 | a single tape symbol is kept exactly when it is neither an input symbol nor `^` nor `_` |
| Alphabet.RegenerateFromRecoveredFields | data/script.js:633-636 | feeding the input alphabet and the recovered auxiliary symbols back into generate reproduces both stored alphabets |
| Alphabet.NormalizeRoundTrip | data/script.js:633-636 | every successful generate is reproduced from the fields a load fills in |
| Machine.GenerateTable | data/script.js:182-237 | on any validation error the editor is unchanged; on success only the two alphabets change and the table is marked generated |
| Machine.AddState | data/script.js:250-257 | `q<counter>` is appended to the states, appended to the final states exactly when requested, the counter goes up by one, nothing else changes |
| Machine.DeleteLastState | data/script.js:286-306 | with at most one state nothing changes; otherwise the states and the final states each become the subsequence of the old list without any copy of the last state's name, keeping the order and the number of copies of every other name (a multiset equality), duplicate-free states lose exactly their last element, the counter goes down by one, transitions and everything else are kept |
| Machine.DropName | data/script.js:295-296 | `filter(s => s !== last)` removes every copy of the name and keeps the other names in order with all their copies (subsequence and multiset) |
| Machine.AddThenDeleteRestores | data/script.js:250-306 | deleting right after adding a fresh name, with at least one state present, restores the editor exactly |
| Machine.UpdateTransition | data/script.js:444-469 | afterwards the cell has a triple whose selected field is the new value and whose other fields are the old ones (empty when the cell had no triple); the key set grows by at most that cell; every other cell and the rest of the record are unchanged |
| Machine.UpdateTransitionLastWriteWins | data/script.js:459-465 | two edits of the same field of a cell equal the second edit alone |
| Machine.UpdateTransitionIdempotent | data/script.js:459-465 | selecting the value a field already holds again changes nothing |
| Machine.UpdateTransitionCommute | data/script.js:448-465 | edits of different fields or different cells commute |
| Table.CaretFirst | data/script.js:339-344 | the display order is a permutation of the tape alphabet with `^` first when present, the identity when absent, and the symbols other than `^` in their original relative order |
| Table.CaretFirstOfWellFormed | data/script.js:339-344 | for a generated tape alphabet the display order is `^`, the input symbols, the auxiliary symbols, `_` |
| Table.BuildRowsIsProduct | data/script.js:347-356 | walking the states and skipping final ones yields the row-major product of the non-final states with the symbols |
| Table.EditableRowsCount | data/script.js:347-356 | the editable table has (number of non-final states) x (number of tape symbols) rows |
| Table.EditableRowsAt | data/script.js:347-356 | rows come state by state in the order of the states, each state's rows in display order: row `i*k+j` is (i-th non-final state, j-th displayed symbol) |
| Table.EditableRowsMembership | data/script.js:347-356 | a (state, symbol) pair is a row exactly when the state is a state that is not final and the symbol is a tape symbol |
| Matrix.CellText | data/script.js:546-557 | a cell shows `-` exactly when there is no triple for it or one of the triple's three fields is empty; otherwise a bracketed text |
| Matrix.CellTextRoundTrip | data/script.js:549-553 | the triple a cell shows can be read back from its text (next state, written symbol, and the direction from ←, →, •) for the values the selects offer |
| Matrix.RowLabelRoundTrip | data/script.js:539-541 | the first column carries the arrow exactly for the initial state, ` *` exactly for final states, and names its state |
| Matrix.Project | data/script.js:503-559 | the matrix is cleared exactly when there are no states; otherwise its header is the caret-first tape alphabet and it has one row per state, final states included, each with one cell per header symbol |
| Matrix.ProjectShowsCompleteTransitions | data/script.js:533-558 | every (state, tape symbol) has a cell in the matrix, and that cell shows a transition exactly when a complete triple is stored for it |
| Matrix.ProjectAfterUpdate | data/script.js:444-469 | a cell edit changes no header, no row label and no cell other than the edited (state, symbol) |
| Matrix.ProjectIgnoresHiddenTransitions | data/script.js:546-548 | triples for pairs outside states x tape alphabet never affect the matrix |
| TapeInput.ValidateTapeInput | data/script.js:821-847 | with no input alphabet the field is untouched; otherwise the field keeps exactly the characters in the alphabet, and the warning lists, once each and in the order of their first occurrence in the field, exactly the removed characters |
| TapeInput.ValidateKeepsOrder | data/script.js:831-833 | the kept characters are a subsequence of the typed text |
| TapeInput.ValidateChangesIffInvalid | data/script.js:836-846 | the field changes exactly when the alphabet is non-empty and the text holds a character outside it, and a warning is shown exactly then |
| TapeInput.ValidateIdempotent | data/script.js:831-837 | filtering an already filtered field changes nothing and warns about nothing |
| TapeInput.ValidateConcat | data/script.js:831-833 | the filter works character by character: filtering a concatenation is concatenating the filtered parts |
| StateNames.StateNameInjective | data/script.js:251 | different counter values give different state names |
| StateNames.NatToDecimal | data/script.js:251 | the decimal rendering of the counter is all digits, reads back as the counter's value (by the reference reading `DecimalValue`), starts with `0` only for zero, and is a single digit exactly below ten |
| StateNames.NumberOfStateName | data/script.js:251 | the number in `q<n>` reads back as `n` |
| Seqs.Dedup | data/script.js:215 | `[...new Set(s)]` has no duplicates and the same members as `s` |
| Seqs.DedupFirstOccurrence | data/script.js:215 | `[...new Set(s)]` lists the members in the order of their first occurrence |
| Seqs.DedupConcat | data/script.js:219-226 | de-duplicating `a ++ b` for duplicate-free `a` gives `a` followed by the new members of `b` |
| Seqs.DropInMultiset | data/script.js:295-296 | filtering out one name removes every copy of it and keeps every copy of every other name |
| TapeInput.RemovedInOrder | data/script.js:839-844 | the de-duplicated rejected characters come in the order in which they first occur in the field |
| Seqs.IndexOf | data/script.js:340 | `indexOf` gives -1 exactly for an absent element, otherwise the index of its first occurrence |
| Session.InitialInv | data/script.js:13-24 | the record the page starts with satisfies the editor invariant |
| Session.StepPreservesInv | data/script.js:182-469 | add state, delete last state, generate table and cell edit each keep the invariant |
| Session.RunPreservesInv | data/script.js:182-469 | any sequence of add, delete, generate and cell edits keeps the invariant |
| Session.DeletePreservesInv | data/script.js:286-306 | deleting keeps the states named `q0 .. q(n-1)` in order, the counter equal to their number, and the final states a subsequence of them |
| Session.ReachableShape | data/script.js:13-24 | in every editor reached from the start by add, delete, generate and cell edits, the states are `q0 .. q(counter-1)` in order and without repetition, `states[0] == initialState == "q0"`, and the final states are distinct states |
| Session.AddThenDelete | data/script.js:250-306 | in every reachable editor, adding then deleting a state restores the editor exactly |
| Session.DeleteThenAdd | data/script.js:250-306 | in every reachable editor with two or more states, deleting the last state and adding one with the same finality restores the editor exactly |
| Session.StaleTransitionsResurface | data/script.js:295-296 | deleting the last state keeps its transitions, and a state added next gets the same name and shows the same matrix cells |
| Session.LoadSavedEditor | data/script.js:629-631 | loading the record of a reachable editor with a generated table restores that editor, counter included, with the code's reset and with the repaired one |
| Session.LoadThenAddFresh | data/script.js:630 | for a loaded record whose states are `q0 .. q(n-1)`, the next state name is not already in use |
| Session.LoadRepairedAgrees | data/script.js:630 | on every record a reachable editor saves, the repaired counter reset gives the same editor as the code's |
| Session.RegenerateAfterLoad | data/script.js:633-636 | for a loaded record whose alphabets have the layout generate produces (input symbols, auxiliary symbols, `^`, `_`, all distinct and alphanumeric apart from `^` and `_`), generating the table again from the fields the load fills in leaves the loaded editor unchanged |
| Machine.Load | data/script.js:629-631 | a load adopts the record unchecked, resets the counter to the number of states and marks the table as generated |
| Machine.LoadReusesName | data/script.js:630 | after loading states `q0, q2` the next added state is `q2` again, and deleting it leaves only `q0` with the counter at 2 |
| Machine.LoadRepaired | data/script.js:629-631 | the repaired load adopts the record and sets the counter so that the next name `q<counter>` is in neither the states nor the final states, for every record |
| Machine.NextFreeCounter | data/script.js:630 | the repaired counter is non-negative and above the number of every `q<n>` in the list |
| Machine.LoadRepairedAddThenDelete | data/script.js:250-306 | after any load with at least one state, adding a state and deleting it again restores the loaded editor, with the repaired reset |

## Left out

- Network I/O: the connection test, save, load, file list, delete, and
  execution requests. A load is modelled only from its successful response
  on (`Machine.Load`). A failed request or an empty file name leaves the
  editor as it was.
- The Turing machine itself, which runs on the device, and the display of
  its results.
- DOM construction, toasts, event wiring, the state list, the option
  widgets, and the clipboard and download fallbacks. The warning of the
  tape-input filter is modelled as the list of characters it would name.
- JSON encoding and decoding. A loaded record is taken as a `Config`, with
  symbols as single characters. Records of the wrong shape are out of
  scope: a record without `states` or `alphabet` makes the code throw after
  it has already replaced the machine, leaving the editor half-loaded.
- The machine name and description (`nome`, `descricao`) are dropped from
  the record. Generate stores them only when the trimmed field is non-empty,
  so a cleared field keeps the old value. Save, copy and run send them with
  the record, and a load refills the form from them. No other handler reads
  them.
- The counter is an unbounded integer. A JavaScript number stops growing at
  2^53, and `q${n}` switches to exponent notation from 10^21. Neither size
  can be reached by clicking.
- Strings are sequences of characters. JavaScript's `split('')` and
  `trim` work on UTF-16 code units, so characters outside the Basic
  Multilingual Plane are not modelled as the browser splits them.
- Clean-up and checks the code does not make. A deleted state's triples
  stay in the record, `updateTransition` accepts any (state, symbol)
  whether or not it is a row of the current table, and a load adopts the
  record without checking it. The model makes none of these checks either.
- Session.Op: a load is not one of the actions of a run, since it adopts
  any record. The load lemmas state instead what they assume of the
  record.
- Matrix.CellTextRoundTrip: stated only for next states and written
  symbols without a comma and for directions `L`, `R`, `S` (the values the
  selects offer), because the cell text cannot be read back otherwise.
- Matrix.RowLabelRoundTrip: stated only for names that neither start with
  the arrow nor end in `*` (true of every `q<n>`), because other names make
  the first column ambiguous.

## Findings

| source | as written | input that shows it | evidently intended | confidence | as-written member | corrected member |
|---|---|---|---|---|---|---|
| data/script.js:630 | after a load the counter is the number of states | a loaded record with states `q0, q2`: the counter becomes 2, the next added state is `q2` a second time, and deleting it removes both copies, leaving `q0` with the counter at 2 | the counter is set past every `q<n>` in use, so the next added state gets a fresh name | medium (records saved by the editor always name their states `q0 .. q(n-1)`, so only edited files show it); not executed | Machine.LoadReusesName | Machine.LoadRepaired |

=== FILE: alphabet.dfy ===
/**
  The alphabet half of the "generate table" action: validating the input
  alphabet and the optional auxiliary tape symbols typed by the user, and
  deriving the tape alphabet (input symbols, then auxiliary symbols, then the
  head marker `^` and the blank `_`, each once). Also the inverse used when a
  saved machine is loaded: recovering the auxiliary-symbol field from the
  stored tape alphabet.
 */
module Alphabet {
  import opened Wrappers
  import opened Seqs

  /** Marks the tape head's reference position. */
  const Caret: char := '^'

  /** An unwritten tape cell. */
  const Blank: char := '_'

  /** The character class `[a-zA-Z0-9]`. */
  predicate IsAlnum(c: char) {
    ('a' <= c <= 'z') || ('A' <= c <= 'Z') || ('0' <= c <= '9')
  }

  /** `/^[a-zA-Z0-9]+$/.test(s)`: one or more alphanumerics and nothing else. */
  function IsValidAlphabet(s: string): (b: bool)
    ensures b <==> |s| > 0 && forall c | c in s :: IsAlnum(c)
  {
    |s| > 0 && IsAlnum(s[0]) && (|s| == 1 || IsValidAlphabet(s[1..]))
  }

  /** The characters `String.prototype.trim` removes: ECMAScript WhiteSpace and LineTerminator. */
  predicate IsJsWhitespace(c: char) {
    || c == '\t' || c == '\n' || c == '\U{B}' || c == '\U{C}' || c == '\r'
    || c == ' ' || c == '\U{A0}' || c == '\U{1680}' || ('\U{2000}' <= c <= '\U{200A}')
    || c == '\U{2028}' || c == '\U{2029}' || c == '\U{202F}' || c == '\U{205F}'
    || c == '\U{3000}' || c == '\U{FEFF}'
  }

  /** Every character is whitespace. */
  predicate AllWhitespace(s: string) {
    forall k | 0 <= k < |s| :: IsJsWhitespace(s[k])
  }

  /** Where `trim` starts its result: the length of the leading whitespace run. */
  function LeadingSpace(s: string): (i: nat)
    ensures i <= |s|
    ensures forall k | 0 <= k < i :: IsJsWhitespace(s[k])
    ensures i == |s| || !IsJsWhitespace(s[i])
  {
    if |s| > 0 && IsJsWhitespace(s[0]) then 1 + LeadingSpace(s[1..]) else 0
  }

  /** Where `trim` ends its result: the start of the trailing whitespace run. */
  function TrailingSpace(s: string): (j: nat)
    ensures j <= |s|
    ensures forall k | j <= k < |s| :: IsJsWhitespace(s[k])
    ensures j == 0 || !IsJsWhitespace(s[j - 1])
  {
    if |s| > 0 && IsJsWhitespace(s[|s| - 1]) then TrailingSpace(s[..|s| - 1]) else |s|
  }

  /**
    `String.prototype.trim`, applied to both form fields before validation:
    the result is the contiguous slice of `s` left after removing whitespace
    from both ends, so it has no whitespace at either end, keeps every other
    character, and is the identity on a string that already has no
    whitespace at its ends.
   */
  function Trim(s: string): (r: string)
    ensures exists i, j | 0 <= i <= j <= |s| :: r == s[i..j] && AllWhitespace(s[..i]) && AllWhitespace(s[j..])
    ensures |r| == 0 || (!IsJsWhitespace(r[0]) && !IsJsWhitespace(r[|r| - 1]))
    ensures (|s| == 0 || (!IsJsWhitespace(s[0]) && !IsJsWhitespace(s[|s| - 1]))) ==> r == s
    ensures forall c | c in r :: c in s
    ensures forall i | 0 <= i < |s| && !IsJsWhitespace(s[i]) :: s[i] in r
  {
    var i := LeadingSpace(s);
    var j := if i == |s| then i else TrailingSpace(s);
    assert i <= j;
    SliceBetweenRuns(s, i, j);
    s[i..j]
  }

  /**
    The slice of `s` between a leading and a trailing whitespace run, each
    ending at a non-whitespace character (or at the other run), has the
    properties `trim` promises.
   */
  lemma SliceBetweenRuns(s: string, i: int, j: int)
    requires 0 <= i <= j <= |s|
    requires forall k | 0 <= k < i :: IsJsWhitespace(s[k])
    requires forall k | j <= k < |s| :: IsJsWhitespace(s[k])
    requires i == j || (!IsJsWhitespace(s[i]) && !IsJsWhitespace(s[j - 1]))
    ensures var r := s[i..j];
      && (exists i', j' | 0 <= i' <= j' <= |s| :: r == s[i'..j'] && AllWhitespace(s[..i']) && AllWhitespace(s[j'..]))
      && (|r| == 0 || (!IsJsWhitespace(r[0]) && !IsJsWhitespace(r[|r| - 1])))
      && ((|s| == 0 || (!IsJsWhitespace(s[0]) && !IsJsWhitespace(s[|s| - 1]))) ==> r == s)
      && (forall c | c in r :: c in s)
      && (forall k | 0 <= k < |s| && !IsJsWhitespace(s[k]) :: s[k] in r)
  {
    var r := s[i..j];
    assert AllWhitespace(s[..i]) && AllWhitespace(s[j..]);
    assert (|s| == 0 || (!IsJsWhitespace(s[0]) && !IsJsWhitespace(s[|s| - 1]))) ==> r == s by {
      if |s| > 0 && !IsJsWhitespace(s[0]) && !IsJsWhitespace(s[|s| - 1]) {
        assert i == 0 && j == |s|;
      }
    }
    forall k | 0 <= k < |s| && !IsJsWhitespace(s[k])
      ensures s[k] in r
    {
      assert r[k - i] == s[k];
    }
  }

  /** Trimming a trimmed field changes nothing. */
  lemma TrimIdempotent(s: string)
    ensures Trim(Trim(s)) == Trim(s)
  {
  }

  /** Why the "generate table" action refused the alphabets (a toast is shown and nothing changes). */
  datatype AlphabetError =
    | MissingInputAlphabet     // the input-alphabet field is blank
    | InvalidInputAlphabet     // it holds a character outside [A-Za-z0-9]
    | InvalidAuxiliaryAlphabet // the auxiliary field is non-blank and holds such a character

  /** The input alphabet and the tape alphabet, as stored in the machine record. */
  datatype Alphabets = Alphabets(input: seq<char>, tape: seq<char>)

  /**
    The data part of `generateTable`: trim both fields, validate them in the
    order the handler does, then de-duplicate the input symbols and build
    the tape alphabet from input symbols, auxiliary symbols, `^` and `_`.
   */
  function Normalize(inputField: string, auxField: string): (r: Result<Alphabets, AlphabetError>)
    ensures r == Failure(MissingInputAlphabet) <==> Trim(inputField) == []
    ensures r == Failure(InvalidInputAlphabet) <==> Trim(inputField) != [] && !IsValidAlphabet(Trim(inputField))
    ensures r == Failure(InvalidAuxiliaryAlphabet)
            <==> IsValidAlphabet(Trim(inputField)) && Trim(auxField) != [] && !IsValidAlphabet(Trim(auxField))
    ensures r.Success? <==> IsValidAlphabet(Trim(inputField)) && (Trim(auxField) == [] || IsValidAlphabet(Trim(auxField)))
    ensures r.Success? ==> r.value.input == Dedup(Trim(inputField)) && NoDup(r.value.tape)
  {
    var input := Trim(inputField);
    var aux := Trim(auxField);
    if input == [] then Failure(MissingInputAlphabet)
    else if !IsValidAlphabet(input) then Failure(InvalidInputAlphabet)
    else if aux != [] && !IsValidAlphabet(aux) then Failure(InvalidAuxiliaryAlphabet)
    else
      var alphabet := Dedup(input);
      var auxiliarySymbols := if aux != [] then Dedup(aux) else [];
      Success(Alphabets(alphabet, Dedup(alphabet + auxiliarySymbols + [Caret, Blank])))
  }

  /**
    The auxiliary-symbol field rebuilt when a machine is loaded: the tape
    symbols that are neither input symbols nor `^` nor `_`.
   */
  function AuxiliaryOf(alphabet: seq<char>, tape: seq<char>): (aux: seq<char>)
    ensures forall c :: c in aux <==> c in tape && c !in alphabet && c != Caret && c != Blank
  {
    DropIn(tape, alphabet + [Caret, Blank])
  }

  /** The recovered symbols keep the order they have in the tape alphabet. */
  lemma AuxiliaryOfSubseq(alphabet: seq<char>, tape: seq<char>)
    ensures IsSubseq(AuxiliaryOf(alphabet, tape), tape)
  {
    FilterBySubseq(tape, alphabet + [Caret, Blank], false);
  }

  /**
    The recovery works symbol by symbol: recovering from two pieces of a
    tape alphabet and joining the results is recovering from the whole, so
    every kept symbol stays where it was and keeps all its copies.
   */
  lemma AuxiliaryOfConcat(alphabet: seq<char>, t1: seq<char>, t2: seq<char>)
    ensures AuxiliaryOf(alphabet, t1 + t2) == AuxiliaryOf(alphabet, t1) + AuxiliaryOf(alphabet, t2)
  {
    FilterByConcat(t1, t2, alphabet + [Caret, Blank], false);
  }

  /** Recovering from one symbol keeps it exactly when it is auxiliary. */
  lemma AuxiliaryOfSingle(alphabet: seq<char>, c: char)
    ensures AuxiliaryOf(alphabet, [c]) == if c !in alphabet && c != Caret && c != Blank then [c] else []
  {
    assert [c][1..] == [];
  }

  /**
    The shape the two alphabets have after a successful "generate table":
    a valid duplicate-free input alphabet, followed in the tape alphabet by
    alphanumeric auxiliary symbols and then `^` and `_`.
   */
  predicate WellFormed(alphabet: seq<char>, tape: seq<char>) {
    && IsValidAlphabet(alphabet)
    && NoDup(alphabet)
    && NoDup(tape)
    && tape == alphabet + AuxiliaryOf(alphabet, tape) + [Caret, Blank]
    && (forall c | c in AuxiliaryOf(alphabet, tape) :: IsAlnum(c))
  }

  // ---------------------------------------------------------------------
  // Properties of a successful normalisation
  // ---------------------------------------------------------------------

  /** De-duplicating input symbols, auxiliary symbols, `^` and `_`. */
  lemma TapeShape(a: seq<char>, x: seq<char>)
    requires NoDup(a) && NoDup(x)
    requires Caret !in a && Blank !in a && Caret !in x && Blank !in x
    ensures Dedup(a + x + [Caret, Blank]) == a + DropIn(x, a) + [Caret, Blank]
  {
    var cb := [Caret, Blank];
    AppendAssoc(a, x, cb);
    DedupConcat(a, x + cb);
    assert x + cb == (x + [Caret]) + [Blank];
    DedupOfNoDup(x);
    DedupAppendFresh(x, Caret);
    DedupAppendFresh(x + [Caret], Blank);
    FilterByConcat(x, cb, a, false);
    FilterByAllPass(cb, a, false);
    AppendAssoc(a, DropIn(x, a), cb);
  }

  /** Filtering the tape alphabet built from `a` and `y` gives back `y`. */
  lemma AuxiliaryOfShape(a: seq<char>, y: seq<char>)
    requires Caret !in a && Blank !in a
    requires forall c | c in y :: c !in a && c != Caret && c != Blank
    ensures AuxiliaryOf(a, a + y + [Caret, Blank]) == y
  {
    var ex := a + [Caret, Blank];
    FilterByConcat(a + y, [Caret, Blank], ex, false);
    FilterByConcat(a, y, ex, false);
    FilterByAllPass(y, ex, false);
    FilterByNonePass(a, ex, false);
    FilterByNonePass([Caret, Blank], ex, false);
  }

  /** The tape alphabet a successful normalisation stores. */
  lemma NormalizeTape(inputField: string, auxField: string)
    requires Normalize(inputField, auxField).Success?
    ensures var v := Normalize(inputField, auxField).value;
      v.tape == v.input + DropIn(Dedup(Trim(auxField)), v.input) + [Caret, Blank]
  {
    var input, aux := Trim(inputField), Trim(auxField);
    var alphabet := Dedup(input);
    var x := if aux != [] then Dedup(aux) else [];
    assert x == Dedup(aux);
    TapeShape(alphabet, x);
  }

  /** Facts about a tape alphabet laid out as input symbols, auxiliary symbols, `^`, `_`. */
  lemma LayoutFacts(a: seq<char>, y: seq<char>)
    requires IsValidAlphabet(a) && NoDup(a) && NoDup(y)
    requires forall c | c in y :: IsAlnum(c) && c !in a
    ensures var t := a + y + [Caret, Blank];
      && NoDup(t)
      && a <= t
      && |t| >= 2 && t[|t| - 2] == Caret && t[|t| - 1] == Blank
      && multiset(t)[Caret] == 1 && multiset(t)[Blank] == 1
      && AuxiliaryOf(a, t) == y
      && WellFormed(a, t)
  {
    var t := a + y + [Caret, Blank];
    AuxiliaryOfShape(a, y);
    NoDupConcat(a, y);
    NoDupConcat(a + y, [Caret, Blank]);
    assert multiset(t) == multiset(a + y) + multiset([Caret, Blank]);
  }

  /**
    After a successful normalisation: the input alphabet is the trimmed field
    de-duplicated in first-occurrence order and is a prefix of the tape
    alphabet; the tape alphabet has no duplicates and ends with `^` then
    `_`, each occurring exactly once; its symbols are exactly those of the
    two fields plus `^` and `_`; and the auxiliary symbols recovered from it
    on load are the de-duplicated auxiliary symbols not already in the
    input alphabet.
   */
  lemma NormalizeShape(inputField: string, auxField: string)
    requires Normalize(inputField, auxField).Success?
    ensures var Alphabets(alphabet, tape) := Normalize(inputField, auxField).value;
      && alphabet == Dedup(Trim(inputField))
      && NoDup(tape)
      && alphabet <= tape
      && |tape| >= 2 && tape[|tape| - 2] == Caret && tape[|tape| - 1] == Blank
      && multiset(tape)[Caret] == 1 && multiset(tape)[Blank] == 1
      && (forall c :: c in tape <==> c in Trim(inputField) || c in Trim(auxField) || c == Caret || c == Blank)
      && AuxiliaryOf(alphabet, tape) == DropIn(Dedup(Trim(auxField)), alphabet)
      && WellFormed(alphabet, tape)
  {
    var v := Normalize(inputField, auxField).value;
    var y := DropIn(Dedup(Trim(auxField)), v.input);
    NormalizeTape(inputField, auxField);
    FilterByNoDup(Dedup(Trim(auxField)), v.input, false);
    assert IsValidAlphabet(Trim(auxField)) || Trim(auxField) == [];
    LayoutFacts(v.input, y);
  }

  /**
    Load-then-regenerate round trip: feeding the input alphabet and the
    recovered auxiliary field back into "generate table" reproduces both
    stored alphabets.
   */
  lemma RegenerateFromRecoveredFields(alphabet: seq<char>, tape: seq<char>)
    requires WellFormed(alphabet, tape)
    ensures Normalize(alphabet, AuxiliaryOf(alphabet, tape)) == Success(Alphabets(alphabet, tape))
  {
    var y := AuxiliaryOf(alphabet, tape);
    TrimAlnum(alphabet);
    TrimAlnum(y);
    NormalizeTrimmed(alphabet, y);
    RecoveredLayout(alphabet, tape);
  }

  /** De-duplicating the recovered pieces and laying them out again gives back the tape alphabet. */
  lemma RecoveredLayout(alphabet: seq<char>, tape: seq<char>)
    requires WellFormed(alphabet, tape)
    ensures Dedup(alphabet) == alphabet
    ensures Dedup(Dedup(alphabet) + Dedup(AuxiliaryOf(alphabet, tape)) + [Caret, Blank]) == tape
  {
    var y := AuxiliaryOf(alphabet, tape);
    DedupOfNoDup(alphabet);
    FilterByNoDup(tape, alphabet + [Caret, Blank], false);
    DedupOfNoDup(y);
    TapeShape(alphabet, y);
    FilterByAllPass(y, alphabet, false);
  }

  /** Alphanumeric text is left alone by `trim`. */
  lemma TrimAlnum(s: string)
    requires forall c | c in s :: IsAlnum(c)
    ensures Trim(s) == s
  {
    if |s| > 0 {
      assert s[0] in s && s[|s| - 1] in s;
    }
  }

  /** Normalising fields that need no trimming and pass validation. */
  lemma NormalizeTrimmed(input: string, aux: string)
    requires Trim(input) == input && Trim(aux) == aux
    requires IsValidAlphabet(input) && (aux == [] || IsValidAlphabet(aux))
    ensures Normalize(input, aux) == Success(Alphabets(Dedup(input), Dedup(Dedup(input) + Dedup(aux) + [Caret, Blank])))
  {
  }

  /** A successful normalisation is reproduced from the fields rebuilt on load. */
  lemma NormalizeRoundTrip(inputField: string, auxField: string)
    requires Normalize(inputField, auxField).Success?
    ensures var v := Normalize(inputField, auxField).value;
      Normalize(v.input, AuxiliaryOf(v.input, v.tape)) == Normalize(inputField, auxField)
  {
    NormalizeShape(inputField, auxField);
    var v := Normalize(inputField, auxField).value;
    RegenerateFromRecoveredFields(v.input, v.tape);
  }
}

=== FILE: machine.dfy ===
/**
  The editor's model: the Turing-machine configuration record (what is saved,
  loaded and sent for execution) together with the counter that names new
  states and the flag recording that the transition table has been
  generated; and the handlers that change it: generate table, add state,
  delete last state, edit one cell, load a saved machine.
 */
module Machine {
  import opened Wrappers
  import opened Seqs
  import opened StateNames
  import opened Alphabet

  /**
    The output of one transition. Each field holds the value of one select of
    the transition table; the empty string is the select's empty option.
   */
  datatype Triple = Triple(nextState: string, newSymbol: string, direction: string)

  /** The triple created the first time a cell of a row is edited. */
  const EmptyTriple: Triple := Triple("", "", "")

  /** Which select of a row changed: `data-type` 'state', 'symbol' or 'direction'. */
  datatype Field = NextStateField | NewSymbolField | DirectionField

  /** The configuration record. Transitions are keyed by (state, read symbol). */
  datatype Config = Config(
    alphabet: seq<char>,
    tapeAlphabet: seq<char>,
    states: seq<string>,
    initialState: string,
    finalStates: seq<string>,
    transitions: map<(string, char), Triple>)

  /** Everything the editor keeps: the configuration, the state counter and the table flag. */
  datatype Editor = Editor(machine: Config, stateCounter: int, tableGenerated: bool)

  /** The editor when the page is opened: only `q0`, counter 1, no table. */
  const InitialEditor: Editor := Editor(Config([], [], ["q0"], "q0", [], map[]), 1, false)

  /** The value one select of the row shows. */
  function GetField(t: Triple, field: Field): string {
    match field
    case NextStateField => t.nextState
    case NewSymbolField => t.newSymbol
    case DirectionField => t.direction
  }

  /** `t` with one field replaced by `value`. */
  function SetField(t: Triple, field: Field, value: string): (r: Triple)
    ensures GetField(r, field) == value
    ensures forall f | f != field :: GetField(r, f) == GetField(t, f)
  {
    match field
    case NextStateField => t.(nextState := value)
    case NewSymbolField => t.(newSymbol := value)
    case DirectionField => t.(direction := value)
  }

  // ---------------------------------------------------------------------
  // Generate table (alphabet part)
  // ---------------------------------------------------------------------

  /**
    The "generate table" action on the model: on any validation failure the
    editor is left exactly as it was; on success only the two alphabets and
    the table flag change (states, final states, counter and transitions are
    kept, including transitions for symbols no longer in the alphabet).
   */
  function GenerateTable(e: Editor, inputField: string, auxField: string): (r: Editor)
    ensures Normalize(inputField, auxField).Failure? ==> r == e
    ensures Normalize(inputField, auxField).Success? ==>
      var v := Normalize(inputField, auxField).value;
      && r.machine.alphabet == v.input
      && r.machine.tapeAlphabet == v.tape
      && r.tableGenerated
      && r.stateCounter == e.stateCounter
      && r.machine.(alphabet := e.machine.alphabet, tapeAlphabet := e.machine.tapeAlphabet) == e.machine
  {
    match Normalize(inputField, auxField)
    case Failure(_) => e
    case Success(v) =>
      e.(machine := e.machine.(alphabet := v.input, tapeAlphabet := v.tape), tableGenerated := true)
  }

  // ---------------------------------------------------------------------
  // State registry
  // ---------------------------------------------------------------------

  /**
    `addState(isFinal)`: the state `q<stateCounter>` is appended to the
    states, and to the final states exactly when `isFinal`; the counter goes
    up by one; nothing else changes.
   */
  function AddState(e: Editor, isFinal: bool): (r: Editor)
    ensures var name := StateName(e.stateCounter);
      && |r.machine.states| == |e.machine.states| + 1
      && r.machine.states[..|e.machine.states|] == e.machine.states
      && r.machine.states[|e.machine.states|] == name
      && (isFinal ==> r.machine.finalStates == e.machine.finalStates + [name])
      && (!isFinal ==> r.machine.finalStates == e.machine.finalStates)
      && r.stateCounter == e.stateCounter + 1
      && r.machine.(states := e.machine.states, finalStates := e.machine.finalStates) == e.machine
      && r.tableGenerated == e.tableGenerated
  {
    var name := StateName(e.stateCounter);
    var finals := if isFinal then e.machine.finalStates + [name] else e.machine.finalStates;
    e.(machine := e.machine.(states := e.machine.states + [name], finalStates := finals),
       stateCounter := e.stateCounter + 1)
  }

  /**
    `deleteLastState()`: refused (nothing changes) while at most one state
    exists. Otherwise every occurrence of the last state's name is filtered
    out of the states and the final states and the counter goes down by one.
    Transitions are not touched.
   */
  function DeleteLastState(e: Editor): (r: Editor)
    ensures |e.machine.states| <= 1 ==> r == e
    ensures |e.machine.states| > 1 ==>
      var last := e.machine.states[|e.machine.states| - 1];
      && (forall s :: s in r.machine.states <==> s in e.machine.states && s != last)
      && (forall s :: s in r.machine.finalStates <==> s in e.machine.finalStates && s != last)
      && IsSubseq(r.machine.states, e.machine.states)
      && multiset(r.machine.states) == multiset(e.machine.states)[last := 0]
      && IsSubseq(r.machine.finalStates, e.machine.finalStates)
      && multiset(r.machine.finalStates) == multiset(e.machine.finalStates)[last := 0]
      && (NoDup(e.machine.states) ==> r.machine.states == e.machine.states[..|e.machine.states| - 1])
      && r.stateCounter == e.stateCounter - 1
      && r.machine.(states := e.machine.states, finalStates := e.machine.finalStates) == e.machine
      && r.tableGenerated == e.tableGenerated
  {
    if |e.machine.states| <= 1 then e
    else
      var states := e.machine.states;
      var last := states[|states| - 1];
      assert NoDup(states) ==> DropIn(states, [last]) == states[..|states| - 1] by {
        if NoDup(states) {
          assert states == states[..|states| - 1] + [last];
          DropAppended(states[..|states| - 1], last);
        }
      }
      e.(machine := e.machine.(states := DropName(states, last),
                               finalStates := DropName(e.machine.finalStates, last)),
         stateCounter := e.stateCounter - 1)
  }

  /**
    `s.filter(t => t !== x)`: every copy of `x` is removed, and every other
    name keeps its position relative to the rest and its number of copies.
   */
  function DropName(s: seq<string>, x: string): (r: seq<string>)
    ensures forall t {:trigger t in r} :: t in r <==> t in s && t != x
    ensures IsSubseq(r, s)
    ensures multiset(r) == multiset(s)[x := 0]
  {
    FilterBySubseq(s, [x], false);
    DropInMultiset(s, x);
    DropIn(s, [x])
  }

  /** Filtering out an element that was only appended at the end. */
  lemma DropAppended(s: seq<string>, x: string)
    requires x !in s
    ensures DropIn(s + [x], [x]) == s
  {
    FilterByConcat(s, [x], [x], false);
    FilterByAllPass(s, [x], false);
    assert DropIn([x], [x]) == [] by {
      assert [x][1..] == [];
    }
  }

  /**
    Deleting right after adding restores states, final states and counter
    exactly, provided some state existed before (otherwise the delete is
    refused) and the added name was fresh (both hold for every editor
    reached from the initial one, see `Session`).
   */
  lemma AddThenDeleteRestores(e: Editor, isFinal: bool)
    requires |e.machine.states| >= 1
    requires StateName(e.stateCounter) !in e.machine.states
    requires StateName(e.stateCounter) !in e.machine.finalStates
    ensures DeleteLastState(AddState(e, isFinal)) == e
  {
    var name := StateName(e.stateCounter);
    var a := AddState(e, isFinal);
    assert a.machine.states == e.machine.states + [name];
    DropAppended(e.machine.states, name);
    if isFinal {
      DropAppended(e.machine.finalStates, name);
    } else {
      FilterByAllPass(e.machine.finalStates, [name], false);
    }
  }

  // ---------------------------------------------------------------------
  // Cell edit
  // ---------------------------------------------------------------------

  /** The stored triple for a cell, or the empty one `updateTransition` would create. */
  function TripleOrEmpty(c: Config, state: string, symbol: char): Triple {
    if (state, symbol) in c.transitions then c.transitions[(state, symbol)] else EmptyTriple
  }

  /**
    `updateTransition`: create an empty triple for (state, symbol) if there is
    none, then set the selected field to `value`. The other two fields of that
    cell, every other cell, and the rest of the configuration are unchanged.
    No check that the cell belongs to the current table is made.
   */
  function UpdateTransition(c: Config, state: string, symbol: char, field: Field, value: string): (r: Config)
    ensures (state, symbol) in r.transitions
    ensures r.transitions.Keys == c.transitions.Keys + {(state, symbol)}
    ensures GetField(r.transitions[(state, symbol)], field) == value
    ensures forall f | f != field :: GetField(r.transitions[(state, symbol)], f) == GetField(TripleOrEmpty(c, state, symbol), f)
    ensures forall k | k in c.transitions && k != (state, symbol) :: r.transitions[k] == c.transitions[k]
    ensures r.(transitions := c.transitions) == c
  {
    c.(transitions := c.transitions[(state, symbol) := SetField(TripleOrEmpty(c, state, symbol), field, value)])
  }

  /** Triples are determined by their three fields. */
  lemma TripleExtensional(t: Triple, u: Triple)
    requires forall f: Field :: GetField(t, f) == GetField(u, f)
    ensures t == u
  {
    assert GetField(t, NextStateField) == GetField(u, NextStateField);
    assert GetField(t, NewSymbolField) == GetField(u, NewSymbolField);
    assert GetField(t, DirectionField) == GetField(u, DirectionField);
  }

  /** The second of two edits of the same field of the same cell wins. */
  lemma UpdateTransitionLastWriteWins(c: Config, state: string, symbol: char, field: Field, v1: string, v2: string)
    ensures UpdateTransition(UpdateTransition(c, state, symbol, field, v1), state, symbol, field, v2)
         == UpdateTransition(c, state, symbol, field, v2)
  {
    var k := (state, symbol);
    var a := UpdateTransition(UpdateTransition(c, state, symbol, field, v1), state, symbol, field, v2);
    var b := UpdateTransition(c, state, symbol, field, v2);
    TripleExtensional(a.transitions[k], b.transitions[k]);
    assert a.transitions == b.transitions;
  }

  /** Selecting the value a field already shows changes nothing more (the edit is idempotent). */
  lemma UpdateTransitionIdempotent(c: Config, state: string, symbol: char, field: Field, value: string)
    ensures var once := UpdateTransition(c, state, symbol, field, value);
      UpdateTransition(once, state, symbol, field, value) == once
  {
    UpdateTransitionLastWriteWins(c, state, symbol, field, value, value);
  }

  /** Edits of different fields, or of different cells, can be applied in either order. */
  lemma UpdateTransitionCommute(c: Config, s1: string, a1: char, f1: Field, v1: string,
                                s2: string, a2: char, f2: Field, v2: string)
    requires (s1, a1) != (s2, a2) || f1 != f2
    ensures UpdateTransition(UpdateTransition(c, s1, a1, f1, v1), s2, a2, f2, v2)
         == UpdateTransition(UpdateTransition(c, s2, a2, f2, v2), s1, a1, f1, v1)
  {
    var x := UpdateTransition(UpdateTransition(c, s1, a1, f1, v1), s2, a2, f2, v2);
    var y := UpdateTransition(UpdateTransition(c, s2, a2, f2, v2), s1, a1, f1, v1);
    if (s1, a1) == (s2, a2) {
      TripleExtensional(x.transitions[(s1, a1)], y.transitions[(s1, a1)]);
    }
    assert x.transitions == y.transitions;
  }

  // ---------------------------------------------------------------------
  // Loading a saved machine
  // ---------------------------------------------------------------------

  /**
    `loadMachine` after a successful response: the record is adopted as is
    (no consistency check), the counter is reset to the number of states and
    the table is marked as generated.
   */
  function Load(data: Config): (r: Editor)
    ensures r.machine == data
    ensures r.stateCounter == |data.states|
    ensures r.tableGenerated
  {
    Editor(data, |data.states|, true)
  }

  /**
    The counter reset counts the states instead of looking at their names, so
    a record whose names skip a number makes the next added state reuse a
    name: after loading `q0, q2` the next state is `q2` again, and deleting it
    removes both copies while the counter stays at 2.
   */
  lemma LoadReusesName()
    ensures var c := Config([], [], ["q0", "q2"], "q0", [], map[]);
      var added := AddState(Load(c), false);
      && added.machine.states == ["q0", "q2", "q2"]
      && DeleteLastState(added).machine.states == ["q0"]
      && DeleteLastState(added).stateCounter == 2
  {
    var c := Config([], [], ["q0", "q2"], "q0", [], map[]);
    StateNameTwo();
    var added := AddState(Load(c), false);
    assert added.machine.states == ["q0", "q2", "q2"];
    DeleteTwoCopies(added);
  }

  /** Deleting when the last name also occurs just before it removes both copies. */
  lemma DeleteTwoCopies(e: Editor)
    requires e.machine.states == ["q0", "q2", "q2"]
    ensures DeleteLastState(e).machine.states == ["q0"]
  {
    assert DeleteLastState(e).machine.states == DropIn(["q0", "q2", "q2"], ["q2"]);
    assert ["q0", "q2", "q2"][1..] == ["q2", "q2"];
    assert ["q2", "q2"][1..] == ["q2"];
    assert ["q2"][1..] == [];
  }

  /** One past the largest number among the names `q<n>` in `states`; 0 when there is none. */
  function NextFreeCounter(states: seq<string>): (k: int)
    ensures k >= 0
    ensures forall s | s in states :: NumberOfName(s) < k
  {
    if |states| == 0 then 0
    else
      var k := NextFreeCounter(states[..|states| - 1]);
      var m := NumberOfName(states[|states| - 1]) + 1;
      assert states == states[..|states| - 1] + [states[|states| - 1]];
      if m > k then m else k
  }

  /** The counter reset a load needs: past every `q<n>` already in use, final states included. */
  function LoadRepaired(data: Config): (r: Editor)
    ensures r.machine == data && r.tableGenerated
    ensures StateName(r.stateCounter) !in data.states
    ensures StateName(r.stateCounter) !in data.finalStates
  {
    var k := NextFreeCounter(data.states + data.finalStates);
    NumberOfStateName(k);
    Editor(data, k, true)
  }

  /** The counter is the least bound above the numbers in use. */
  lemma {:induction false} NextFreeCounterAtMost(states: seq<string>, bound: int)
    requires bound >= 0
    requires forall s | s in states :: NumberOfName(s) < bound
    ensures NextFreeCounter(states) <= bound
  {
    if |states| > 0 {
      NextFreeCounterAtMost(states[..|states| - 1], bound);
    }
  }

  /**
    With the repaired reset, adding a state right after any load (with at
    least one state) and deleting it again restores the loaded editor.
   */
  lemma LoadRepairedAddThenDelete(data: Config, isFinal: bool)
    requires |data.states| >= 1
    ensures DeleteLastState(AddState(LoadRepaired(data), isFinal)) == LoadRepaired(data)
  {
    AddThenDeleteRestores(LoadRepaired(data), isFinal);
  }
}

=== FILE: matrix.dfy ===
/**
  The read-only matrix view of the machine (`updateVisualization`): a header
  of tape symbols in display order and one row per state, final states
  included, each cell showing a transition only when all three of its fields
  are filled in.
 */
module Matrix {
  import opened Wrappers
  import opened Seqs
  import opened Machine
  import opened Table

  const LeftArrow: char := '\U{2190}'
  const RightArrow: char := '\U{2192}'
  const Bullet: char := '\U{2022}'

  /** The glyph shown for a direction: a left arrow for `L`, a right arrow for `R`, a bullet for anything else. */
  function Glyph(direction: string): string {
    if direction == "L" then [LeftArrow]
    else if direction == "R" then [RightArrow]
    else [Bullet]
  }

  /** A triple is shown only when next state, written symbol and direction are all non-empty. */
  predicate Complete(t: Triple) {
    t.nextState != "" && t.newSymbol != "" && t.direction != ""
  }

  /** Whether the cell for (state, symbol) shows a transition. */
  predicate Shown(c: Config, state: string, symbol: char) {
    (state, symbol) in c.transitions && Complete(c.transitions[(state, symbol)])
  }

  /**
    The text of one cell: `(next, symbol, glyph)` for a complete stored
    triple, `-` otherwise (no triple, or one with an empty field).
   */
  function CellText(c: Config, state: string, symbol: char): (text: string)
    ensures text == "-" <==> !Shown(c, state, symbol)
    ensures Shown(c, state, symbol) ==> |text| >= 2 && text[0] == '(' && text[|text| - 1] == ')'
  {
    if Shown(c, state, symbol) then
      var t := c.transitions[(state, symbol)];
      "(" + t.nextState + ", " + t.newSymbol + ", " + Glyph(t.direction) + ")"
    else "-"
  }

  /** The first column: an arrow in front of the initial state, ` *` after a final state. */
  function RowLabel(c: Config, state: string): string {
    (if state == c.initialState then [RightArrow, ' '] + state else state)
    + (if state in c.finalStates then " *" else "")
  }

  /** Whether a first-column text carries the initial-state arrow. */
  predicate MarkedInitial(title: string) {
    |title| >= 2 && title[..2] == [RightArrow, ' ']
  }

  /** Whether a first-column text carries the final-state star. */
  predicate MarkedFinal(title: string) {
    |title| >= 2 && title[|title| - 2..] == " *"
  }

  /** The state a first-column text names: the marks removed. */
  function StateOfTitle(title: string): string {
    var t := if MarkedInitial(title) then title[2..] else title;
    if MarkedFinal(t) then t[..|t| - 2] else t
  }

  /**
    The first column identifies its state and both of its marks, as long as
    the name itself neither starts with the arrow nor ends with a star (state
    names are `q` followed by digits).
   */
  lemma RowLabelRoundTrip(c: Config, state: string)
    requires |state| >= 1 && state[0] != RightArrow && state[|state| - 1] != '*'
    ensures MarkedInitial(RowLabel(c, state)) <==> state == c.initialState
    ensures MarkedFinal(RowLabel(c, state)) <==> state in c.finalStates
    ensures StateOfTitle(RowLabel(c, state)) == state
  {
    var suffix := if state in c.finalStates then " *" else "";
    var title := RowLabel(c, state);
    var rest := state + suffix;
    if state == c.initialState {
      assert title == [RightArrow, ' '] + rest;
      assert title[..2] == [RightArrow, ' '];
      assert title[2..] == rest;
    } else {
      assert title == rest;
      assert title[0] == state[0];
    }
    assert StateOfTitle(title) == (if MarkedFinal(rest) then rest[..|rest| - 2] else rest);
    assert title[|title| - 1] == rest[|rest| - 1];
    if state in c.finalStates {
      assert rest[|rest| - 2..] == " *";
      assert title[|title| - 2..] == " *";
      assert rest[..|rest| - 2] == state;
    } else {
      assert rest == state;
    }
  }

  datatype Row = Row(title: string, cells: seq<string>)

  /** The matrix: cleared when there are no states, otherwise a header and rows. */
  datatype View = Cleared | Grid(header: seq<char>, rows: seq<Row>)

  /** The cells of one state's row, one per header symbol. */
  function Cells(c: Config, state: string, header: seq<char>): (cells: seq<string>)
    ensures |cells| == |header|
    ensures forall j | 0 <= j < |header| :: cells[j] == CellText(c, state, header[j])
  {
    seq(|header|, j requires 0 <= j < |header| => CellText(c, state, header[j]))
  }

  /**
    `updateVisualization`: the header is the tape alphabet with `^` first;
    every state, final or not, gets a row with one cell per header symbol.
   */
  function Project(c: Config): (v: View)
    ensures v.Cleared? <==> |c.states| == 0
    ensures v.Grid? ==>
      && v.header == CaretFirst(c.tapeAlphabet)
      && |v.rows| == |c.states|
      && (forall i | 0 <= i < |v.rows| ::
            v.rows[i].title == RowLabel(c, c.states[i]) && |v.rows[i].cells| == |v.header|)
      && (forall i, j | 0 <= i < |v.rows| && 0 <= j < |v.header| ::
            v.rows[i].cells[j] == CellText(c, c.states[i], v.header[j]))
  {
    if |c.states| == 0 then Cleared
    else
      var header := CaretFirst(c.tapeAlphabet);
      Grid(header, seq(|c.states|, i requires 0 <= i < |c.states| =>
        Row(RowLabel(c, c.states[i]), Cells(c, c.states[i], header))))
  }

  /**
    A cell of the matrix shows a transition exactly when the configuration
    holds a complete triple for that state and symbol; the matrix covers every
    state and every tape symbol.
   */
  lemma ProjectShowsCompleteTransitions(c: Config, state: string, symbol: char)
    requires state in c.states && symbol in c.tapeAlphabet
    ensures Project(c).Grid?
    ensures exists i, j | 0 <= i < |Project(c).rows| && 0 <= j < |Project(c).header| ::
      && c.states[i] == state && Project(c).header[j] == symbol
      && (Project(c).rows[i].cells[j] != "-" <==> Shown(c, state, symbol))
  {
    var v := Project(c);
    var i :| 0 <= i < |c.states| && c.states[i] == state;
    assert symbol in multiset(c.tapeAlphabet);
    assert symbol in v.header by {
      assert multiset(v.header) == multiset(c.tapeAlphabet);
    }
    var j :| 0 <= j < |v.header| && v.header[j] == symbol;
    assert v.rows[i].cells[j] == CellText(c, state, symbol);
  }

  /** A cell's text depends only on that cell's triple. */
  lemma CellTextLocal(c: Config, d: Config, s: string, a: char)
    requires (s, a) in c.transitions <==> (s, a) in d.transitions
    requires (s, a) in c.transitions ==> c.transitions[(s, a)] == d.transitions[(s, a)]
    ensures CellText(c, s, a) == CellText(d, s, a)
  {
  }

  /**
    Only the cells of the edited state and symbol can change when one field
    of one transition is edited; the header and the labels never do.
   */
  lemma ProjectAfterUpdate(c: Config, state: string, symbol: char, field: Field, value: string)
    ensures var v, w := Project(c), Project(UpdateTransition(c, state, symbol, field, value));
      && (v.Cleared? <==> w.Cleared?)
      && (v.Grid? ==>
            && w.header == v.header
            && |w.rows| == |v.rows|
            && (forall i | 0 <= i < |v.rows| :: w.rows[i].title == v.rows[i].title)
            && (forall i, j | 0 <= i < |v.rows| && 0 <= j < |v.header| && (c.states[i], v.header[j]) != (state, symbol) ::
                  w.rows[i].cells[j] == v.rows[i].cells[j]))
  {
    var d := UpdateTransition(c, state, symbol, field, value);
    var v, w := Project(c), Project(d);
    if v.Grid? {
      forall i, j | 0 <= i < |v.rows| && 0 <= j < |v.header| && (c.states[i], v.header[j]) != (state, symbol)
        ensures w.rows[i].cells[j] == v.rows[i].cells[j]
      {
        CellTextLocal(c, d, c.states[i], v.header[j]);
      }
    }
  }

  /** Rows whose cells all agree are equal. */
  lemma CellsAgree(c: Config, d: Config, s: string, header: seq<char>)
    requires forall a | a in header :: CellText(c, s, a) == CellText(d, s, a)
    ensures Cells(c, s, header) == Cells(d, s, header)
  {
  }

  /**
    The matrix depends only on the triples of the cells it shows: two
    configurations that differ only in triples for pairs outside
    states x tape alphabet look the same. So triples kept for a deleted state
    are invisible until a state of that name exists again.
   */
  lemma ProjectIgnoresHiddenTransitions(c: Config, d: Config)
    requires d.(transitions := c.transitions) == c
    requires forall s, a | s in c.states && a in c.tapeAlphabet ::
      ((s, a) in c.transitions <==> (s, a) in d.transitions)
      && ((s, a) in c.transitions ==> c.transitions[(s, a)] == d.transitions[(s, a)])
    ensures Project(c) == Project(d)
  {
    if |c.states| > 0 {
      var header := CaretFirst(c.tapeAlphabet);
      forall s | s in c.states
        ensures Cells(c, s, header) == Cells(d, s, header)
      {
        forall a | a in header
          ensures CellText(c, s, a) == CellText(d, s, a)
        {
          assert a in multiset(header);
          CellTextLocal(c, d, s, a);
        }
        CellsAgree(c, d, s, header);
      }
      var v, w := Project(c), Project(d);
      forall i | 0 <= i < |c.states|
        ensures v.rows[i] == w.rows[i]
      {
        assert v.rows[i] == Row(RowLabel(c, c.states[i]), Cells(c, c.states[i], header));
      }
    }
  }

  // ---------------------------------------------------------------------
  // Reading a cell back
  // ---------------------------------------------------------------------

  /** The direction a glyph stands for, among the select's options `L`, `R`, `S`. */
  function DirectionOfGlyph(g: string): string {
    if g == [LeftArrow] then "L" else if g == [RightArrow] then "R" else "S"
  }

  /** Split at the first `, `. */
  function SplitComma(s: string): (r: Option<(string, string)>)
    ensures r.Some? ==> s == r.value.0 + ", " + r.value.1 && ',' !in r.value.0
  {
    var i := IndexOf(s, ',');
    if i < 0 || i + 1 >= |s| || s[i + 1] != ' ' then None
    else
      assert s == s[..i] + ", " + s[i + 2..];
      Some((s[..i], s[i + 2..]))
  }

  /** Recover the triple a shown cell displays. */
  function ParseCell(text: string): (r: Option<Triple>)
    ensures r.Some? ==> |text| >= 2 && text[0] == '(' && text[|text| - 1] == ')'
    ensures r.Some? ==> r.value.direction in {"L", "R", "S"}
  {
    if |text| < 2 || text[0] != '(' || text[|text| - 1] != ')' then None
    else match SplitComma(text[1..|text| - 1])
      case None => None
      case Some((n, rest)) =>
        match SplitComma(rest)
        case None => None
        case Some((m, g)) => Some(Triple(n, m, DirectionOfGlyph(g)))
  }

  /** Splitting where the first part holds no comma. */
  lemma SplitCommaOf(a: string, b: string)
    requires ',' !in a
    ensures SplitComma(a + ", " + b) == Some((a, b))
  {
    var s := a + ", " + b;
    assert s[..|a|] == a;
    IndexOfUnique(s, ',', |a|);
    assert s[|a| + 2..] == b;
  }

  /**
    The cell text is a faithful rendering: for the values the selects offer
    (state names and tape symbols contain no comma, directions are `L`, `R`
    or `S`), the shown triple can be read back from the cell.
   */
  lemma CellTextRoundTrip(c: Config, state: string, symbol: char)
    requires Shown(c, state, symbol)
    requires var t := c.transitions[(state, symbol)];
      ',' !in t.nextState && ',' !in t.newSymbol && t.direction in {"L", "R", "S"}
    ensures ParseCell(CellText(c, state, symbol)) == Some(c.transitions[(state, symbol)])
  {
    var t := c.transitions[(state, symbol)];
    RenderParse(t.nextState, t.newSymbol, t.direction);
  }

  /** Reading back a rendered triple. */
  lemma RenderParse(n: string, m: string, d: string)
    requires ',' !in n && ',' !in m && d in {"L", "R", "S"}
    ensures ParseCell("(" + n + ", " + m + ", " + Glyph(d) + ")") == Some(Triple(n, m, d))
  {
    var inner := n + ", " + (m + ", " + Glyph(d));
    var text := "(" + n + ", " + m + ", " + Glyph(d) + ")";
    assert text == "(" + inner + ")";
    assert text[1..|text| - 1] == inner;
    SplitCommaOf(n, m + ", " + Glyph(d));
    SplitCommaOf(m, Glyph(d));
  }
}

=== FILE: seqs.dfy ===
/**
  Sequence operations the editor borrows from JavaScript arrays:
  `indexOf`, `[...new Set(xs)]` (duplicate removal keeping first occurrences)
  and `filter` by membership in another array (`includes`).
 */
module Seqs {

  /** No element occurs twice. */
  predicate NoDup<T(==)>(s: seq<T>) {
    forall i, j | 0 <= i < j < |s| :: s[i] != s[j]
  }

  /** `r` can be obtained from `s` by deleting elements (order is kept). */
  predicate IsSubseq<T(==)>(r: seq<T>, s: seq<T>)
    decreases |s|
  {
    if |r| == 0 then true
    else if |s| == 0 then false
    else (r[0] == s[0] && IsSubseq(r[1..], s[1..])) || IsSubseq(r, s[1..])
  }

  /** `Array.prototype.indexOf`: the first index holding `x`, or -1. */
  function IndexOf<T(==)>(s: seq<T>, x: T): (r: int)
    ensures -1 <= r < |s|
    ensures r == -1 <==> x !in s
    ensures 0 <= r ==> s[r] == x && x !in s[..r]
  {
    if |s| == 0 then -1
    else if s[0] == x then 0
    else
      var k := IndexOf(s[1..], x);
      if k == -1 then -1
      else
        assert s[..k + 1] == [s[0]] + s[1..][..k];
        k + 1
  }

  /**
    `[...new Set(s)]`: every element once, in the order of its first
    occurrence. A `Set` is filled left to right, so the last element of `s`
    is appended exactly when it was not seen before.
   */
  function Dedup<T(==,!new)>(s: seq<T>): (r: seq<T>)
    ensures NoDup(r)
    ensures forall x {:trigger x in r} :: x in r <==> x in s
    ensures |r| <= |s|
  {
    if |s| == 0 then []
    else
      var d := Dedup(s[..|s| - 1]);
      var x := s[|s| - 1];
      if x in d then d else d + [x]
  }

  /** Joining two duplicate-free sequences with no common element. */
  lemma NoDupConcat<T>(a: seq<T>, b: seq<T>)
    requires NoDup(a) && NoDup(b)
    requires forall x | x in a :: x !in b
    ensures NoDup(a + b)
  {
    forall i, j | 0 <= i < j < |a + b|
      ensures (a + b)[i] != (a + b)[j]
    {
      if j >= |a| && i < |a| {
        assert (a + b)[i] in a;
      }
    }
  }

  /**
    `s.filter(x => members.includes(x) == keep)`: the elements of `s` whose
    membership in `members` is `keep`, in their original order.
   */
  function FilterBy<T(==,!new)>(s: seq<T>, members: seq<T>, keep: bool): (r: seq<T>)
    ensures forall x {:trigger x in r} :: x in r <==> x in s && (x in members) == keep
    ensures |r| <= |s|
  {
    if |s| == 0 then []
    else (if (s[0] in members) == keep then [s[0]] else []) + FilterBy(s[1..], members, keep)
  }

  /** `s.filter(x => allowed.includes(x))`. */
  function KeepIn<T(==,!new)>(s: seq<T>, allowed: seq<T>): seq<T> {
    FilterBy(s, allowed, true)
  }

  /** `s.filter(x => !excluded.includes(x))`. */
  function DropIn<T(==,!new)>(s: seq<T>, excluded: seq<T>): seq<T> {
    FilterBy(s, excluded, false)
  }

  // ---------------------------------------------------------------------
  // IndexOf
  // ---------------------------------------------------------------------

  /** The first-occurrence index is the only index with that description. */
  lemma IndexOfUnique<T>(s: seq<T>, x: T, k: int)
    requires 0 <= k < |s| && s[k] == x && x !in s[..k]
    ensures IndexOf(s, x) == k
  {
    assert x in s;
  }

  /** Appending elements does not move the first occurrence of an element already present. */
  lemma IndexOfAppend<T>(p: seq<T>, q: seq<T>, x: T)
    requires x in p
    ensures IndexOf(p + q, x) == IndexOf(p, x)
  {
    var k := IndexOf(p, x);
    assert (p + q)[..k] == p[..k];
    IndexOfUnique(p + q, x, k);
  }

  // ---------------------------------------------------------------------
  // Dedup
  // ---------------------------------------------------------------------

  /** Appending an element not seen before appends it to the de-duplicated sequence. */
  lemma DedupAppendFresh<T(!new)>(s: seq<T>, x: T)
    requires x !in s
    ensures Dedup(s + [x]) == Dedup(s) + [x]
  {
    assert (s + [x])[..|s + [x]| - 1] == s;
  }

  /** Appending an element already seen changes nothing. */
  lemma DedupAppendSeen<T(!new)>(s: seq<T>, x: T)
    requires x in s
    ensures Dedup(s + [x]) == Dedup(s)
  {
    assert (s + [x])[..|s + [x]| - 1] == s;
  }

  /** A sequence without duplicates is its own de-duplication. */
  lemma {:induction false} DedupOfNoDup<T(!new)>(s: seq<T>)
    requires NoDup(s)
    ensures Dedup(s) == s
  {
    if |s| > 0 {
      var p := s[..|s| - 1];
      assert NoDup(p);
      DedupOfNoDup(p);
      assert s == p + [s[|s| - 1]];
      assert s[|s| - 1] !in p;
      DedupAppendFresh(p, s[|s| - 1]);
    }
  }

  /**
    De-duplicating `a + b` when `a` has no duplicates keeps `a` and then the
    first occurrences of the elements of `b` that are not in `a`.
   */
  lemma {:induction false} DedupConcat<T(!new)>(a: seq<T>, b: seq<T>)
    requires NoDup(a)
    ensures Dedup(a + b) == a + DropIn(Dedup(b), a)
    decreases |b|
  {
    if |b| == 0 {
      assert a + b == a;
      DedupOfNoDup(a);
    } else {
      var b' := b[..|b| - 1];
      DedupConcat(a, b');
      assert b == b' + [b[|b| - 1]];
      DedupConcatStep(a, b', b[|b| - 1]);
    }
  }

  /** The inductive step of `DedupConcat`: one more element at the end of `b`. */
  lemma DedupConcatStep<T(!new)>(a: seq<T>, b: seq<T>, x: T)
    requires NoDup(a)
    requires Dedup(a + b) == a + DropIn(Dedup(b), a)
    ensures Dedup(a + (b + [x])) == a + DropIn(Dedup(b + [x]), a)
  {
    AppendAssoc(a, b, [x]);
    if x in b {
      DedupAppendSeen(a + b, x);
      DedupAppendSeen(b, x);
    } else {
      var d := DropIn(Dedup(b), a);
      DedupAppendFresh(b, x);
      FilterByConcat(Dedup(b), [x], a, false);
      DropInSingle(x, a);
      if x in a {
        calc {
          Dedup((a + b) + [x]);
          { DedupAppendSeen(a + b, x); }
          a + d;
          { assert d + DropIn([x], a) == d; }
          a + DropIn(Dedup(b) + [x], a);
        }
      } else {
        calc {
          Dedup((a + b) + [x]);
          { DedupAppendFresh(a + b, x); }
          (a + d) + [x];
          { AppendAssoc(a, d, [x]); }
          a + (d + DropIn([x], a));
          a + DropIn(Dedup(b) + [x], a);
        }
      }
    }
  }

  /** Concatenation is associative (stated apart to keep the callers' proofs small). */
  lemma AppendAssoc<T>(a: seq<T>, b: seq<T>, c: seq<T>)
    ensures a + (b + c) == (a + b) + c
  {
  }

  /** Filtering a one-element sequence. */
  lemma DropInSingle<T(!new)>(x: T, excluded: seq<T>)
    ensures DropIn([x], excluded) == if x in excluded then [] else [x]
  {
    assert [x][1..] == [];
  }

  /**
    The elements of `Dedup(s)` appear in the order of their first occurrence
    in `s`; together with the membership and no-duplicate facts this pins
    `Dedup(s)` down completely.
   */
  lemma {:induction false} DedupFirstOccurrence<T(!new)>(s: seq<T>)
    ensures forall i, j | 0 <= i < j < |Dedup(s)| :: IndexOf(s, Dedup(s)[i]) < IndexOf(s, Dedup(s)[j])
  {
    if |s| > 0 {
      var p := s[..|s| - 1];
      var x := s[|s| - 1];
      assert s == p + [x];
      DedupFirstOccurrence(p);
      var d := Dedup(p);
      forall y | y in p
        ensures IndexOf(s, y) == IndexOf(p, y)
      {
        IndexOfAppend(p, [x], y);
      }
      if x !in d {
        assert x !in p[..|p|];
        IndexOfUnique(s, x, |p|);
      }
    }
  }

  // ---------------------------------------------------------------------
  // FilterBy
  // ---------------------------------------------------------------------

  /** Filtering distributes over concatenation. */
  lemma {:induction false} FilterByConcat<T(!new)>(a: seq<T>, b: seq<T>, members: seq<T>, keep: bool)
    ensures FilterBy(a + b, members, keep) == FilterBy(a, members, keep) + FilterBy(b, members, keep)
  {
    if |a| > 0 {
      assert (a + b)[1..] == a[1..] + b;
      FilterByConcat(a[1..], b, members, keep);
    } else {
      assert a + b == b;
    }
  }

  /** When every element passes, filtering is the identity. */
  lemma {:induction false} FilterByAllPass<T(!new)>(s: seq<T>, members: seq<T>, keep: bool)
    requires forall x | x in s :: (x in members) == keep
    ensures FilterBy(s, members, keep) == s
  {
    if |s| > 0 {
      FilterByAllPass(s[1..], members, keep);
      assert s == [s[0]] + s[1..];
    }
  }

  /** Filtering keeps the order of the kept elements. */
  lemma {:induction false} FilterBySubseq<T(!new)>(s: seq<T>, members: seq<T>, keep: bool)
    ensures IsSubseq(FilterBy(s, members, keep), s)
  {
    if |s| > 0 {
      var r, rest := FilterBy(s, members, keep), FilterBy(s[1..], members, keep);
      FilterBySubseq(s[1..], members, keep);
      if (s[0] in members) == keep {
        assert r == [s[0]] + rest;
        assert r[0] == s[0] && r[1..] == rest;
      } else {
        assert r == rest;
      }
    }
  }

  /** Filtering removes something exactly when some element fails the condition. */
  lemma {:induction false} FilterByLength<T(!new)>(s: seq<T>, members: seq<T>, keep: bool)
    ensures |FilterBy(s, members, keep)| == |s| <==> forall x | x in s :: (x in members) == keep
  {
    if |s| > 0 {
      FilterByLength(s[1..], members, keep);
      assert s == [s[0]] + s[1..];
    }
  }

  /** Filtering a duplicate-free sequence gives a duplicate-free sequence. */
  lemma {:induction false} FilterByNoDup<T(!new)>(s: seq<T>, members: seq<T>, keep: bool)
    requires NoDup(s)
    ensures NoDup(FilterBy(s, members, keep))
  {
    if |s| > 0 {
      assert NoDup(s[1..]);
      FilterByNoDup(s[1..], members, keep);
      var rest := FilterBy(s[1..], members, keep);
      assert s[0] !in s[1..];
      if (s[0] in members) == keep {
        NoDupConcat([s[0]], rest);
      }
    }
  }

  /** When no element passes, filtering gives the empty sequence. */
  lemma {:induction false} FilterByNonePass<T(!new)>(s: seq<T>, members: seq<T>, keep: bool)
    requires forall x | x in s :: (x in members) != keep
    ensures FilterBy(s, members, keep) == []
  {
    if |s| > 0 {
      FilterByNonePass(s[1..], members, keep);
    }
  }

  /** Filtering twice by the same condition is filtering once. */
  lemma FilterByIdempotent<T(!new)>(s: seq<T>, members: seq<T>, keep: bool)
    ensures FilterBy(FilterBy(s, members, keep), members, keep) == FilterBy(s, members, keep)
  {
    FilterByAllPass(FilterBy(s, members, keep), members, keep);
  }

  /** Dropping one value removes all its copies and keeps every other copy. */
  lemma {:induction false} DropInMultiset<T(!new)>(s: seq<T>, x: T)
    ensures multiset(DropIn(s, [x])) == multiset(s)[x := 0]
  {
    if |s| > 0 {
      DropInMultiset(s[1..], x);
      assert s == [s[0]] + s[1..];
      assert multiset(s) == multiset([s[0]]) + multiset(s[1..]);
    }
  }

  /** Only the membership of the elements of `s` matters. */
  lemma {:induction false} FilterByCongruent<T(!new)>(s: seq<T>, m1: seq<T>, m2: seq<T>, keep: bool)
    requires forall x | x in s :: x in m1 <==> x in m2
    ensures FilterBy(s, m1, keep) == FilterBy(s, m2, keep)
  {
    if |s| > 0 {
      FilterByCongruent(s[1..], m1, m2, keep);
    }
  }
}

=== FILE: session.dfy ===
/**
  Sequences of user actions on the editor (add state, delete last state,
  generate table, cell edit), starting from the page as it is opened, and
  the invariant every reachable editor keeps: the states are
  exactly `q0 .. q(n-1)` in order, the counter equals their number, `q0` is
  the initial state, the final states are a subsequence of the states, and
  once the table has been generated the alphabets have the layout generate
  table produces. A load is not one of these actions, since it adopts any
  record; the load lemmas at the end state what they assume of the record.
 */
module Session {
  import opened Seqs
  import opened StateNames
  import opened Alphabet
  import opened Machine
  import opened Matrix

  /** One user action that changes the model. */
  datatype Op =
    | AddStateOp(isFinal: bool)
    | DeleteLastStateOp
    | GenerateTableOp(inputField: string, auxField: string)
    | EditCellOp(state: string, symbol: char, field: Field, value: string)

  function Step(e: Editor, op: Op): Editor {
    match op
    case AddStateOp(isFinal) => AddState(e, isFinal)
    case DeleteLastStateOp => DeleteLastState(e)
    case GenerateTableOp(inputField, auxField) => GenerateTable(e, inputField, auxField)
    case EditCellOp(state, symbol, field, value) => e.(machine := UpdateTransition(e.machine, state, symbol, field, value))
  }

  /** The editor after performing `ops` in order. */
  function Run(e: Editor, ops: seq<Op>): Editor
    decreases |ops|
  {
    if |ops| == 0 then e else Run(Step(e, ops[0]), ops[1..])
  }

  /** State `i` is named `q<i>`. */
  predicate NamedInOrder(states: seq<string>) {
    forall i | 0 <= i < |states| :: states[i] == StateName(i)
  }

  predicate Inv(e: Editor) {
    && |e.machine.states| >= 1
    && e.stateCounter == |e.machine.states|
    && NamedInOrder(e.machine.states)
    && e.machine.initialState == StateName(0)
    && e.machine.finalStates == KeepIn(e.machine.states, e.machine.finalStates)
    && (e.tableGenerated ==> WellFormed(e.machine.alphabet, e.machine.tapeAlphabet))
  }

  lemma InitialInv()
    ensures Inv(InitialEditor)
  {
    StateNameZero();
  }

  /** The next name, `q<n>`, is not among `q0 .. q(n-1)`. */
  lemma NextNameFresh(states: seq<string>)
    requires NamedInOrder(states)
    ensures StateName(|states|) !in states
  {
    if StateName(|states|) in states {
      var i :| 0 <= i < |states| && states[i] == StateName(|states|);
      StateNameInjective(i, |states|);
    }
  }

  /** Names built from distinct counters never repeat. */
  lemma NamedNoDup(states: seq<string>)
    requires NamedInOrder(states)
    ensures NoDup(states)
  {
    forall i, j | 0 <= i < j < |states|
      ensures states[i] != states[j]
    {
      if states[i] == states[j] {
        StateNameInjective(i, j);
      }
    }
  }

  /** Keeping the members of `s` that appear in `m`, for a one-element `s`. */
  lemma KeepInSingle(x: string, m: seq<string>)
    ensures KeepIn([x], m) == if x in m then [x] else []
  {
    assert [x][1..] == [];
  }

  lemma AddPreservesInv(e: Editor, isFinal: bool)
    requires Inv(e)
    ensures Inv(AddState(e, isFinal))
  {
    var states, finals := e.machine.states, e.machine.finalStates;
    var name := StateName(e.stateCounter);
    var r := AddState(e, isFinal);
    NextNameFresh(states);
    assert r.machine.states == states + [name];
    AppendNamed(states);
    AddKeepsFinalsInOrder(states, finals, name, isFinal);
    assert r.machine.finalStates == if isFinal then finals + [name] else finals;
  }

  /** Appending the next name keeps the names in order. */
  lemma AppendNamed(states: seq<string>)
    requires NamedInOrder(states)
    ensures NamedInOrder(states + [StateName(|states|)])
  {
    var t := states + [StateName(|states|)];
    forall i | 0 <= i < |t|
      ensures t[i] == StateName(i)
    {
      if i < |states| {
        assert t[i] == states[i];
      }
    }
  }

  /** Appending a fresh state, and possibly its name to the final states, keeps the final states a subsequence. */
  lemma AddKeepsFinalsInOrder(states: seq<string>, finals: seq<string>, name: string, isFinal: bool)
    requires finals == KeepIn(states, finals)
    requires name !in states
    ensures var finals' := if isFinal then finals + [name] else finals;
      finals' == KeepIn(states + [name], finals')
  {
    var finals' := if isFinal then finals + [name] else finals;
    FilterByConcat(states, [name], finals', true);
    FilterByCongruent(states, finals, finals', true);
    KeepInSingle(name, finals');
    assert name !in finals;
  }

  lemma DeletePreservesInv(e: Editor)
    requires Inv(e)
    ensures Inv(DeleteLastState(e))
  {
    var states := e.machine.states;
    if |states| > 1 {
      var p, last := states[..|states| - 1], states[|states| - 1];
      var k := DeleteKeepsPrefix(e);
      var r := DeleteLastState(e);
      assert r.machine.states == p;
      assert r.machine.finalStates == k;
      FilterByCongruent(p, k, e.machine.finalStates, true);
    }
  }

  /**
    For an editor with more than one state: the final states split into
    those among the first n-1 states and, possibly, the last state; delete
    keeps exactly the former.
   */
  lemma DeleteKeepsPrefix(e: Editor) returns (k: seq<string>)
    requires Inv(e) && |e.machine.states| > 1
    ensures var states := e.machine.states;
      var last := states[|states| - 1];
      && k == KeepIn(states[..|states| - 1], e.machine.finalStates)
      && last !in k
      && e.machine.finalStates == k + KeepIn([last], e.machine.finalStates)
      && DeleteLastState(e).machine.finalStates == k
      && DeleteLastState(e).machine.states == states[..|states| - 1]
  {
    var states, finals := e.machine.states, e.machine.finalStates;
    var p, last := states[..|states| - 1], states[|states| - 1];
    NamedNoDup(states);
    SplitLast(states);
    assert last !in p;
    k := KeepIn(p, finals);
    SplitFinals(p, last, finals);
    assert DeleteLastState(e).machine.finalStates == DropIn(finals, [last]);
  }

  /**
    Keeping the members of `finals` in `p + [last]` splits into the part kept
    from `p` and the part kept from `[last]`; dropping `last` from the whole
    leaves the first part when `last` is not in `p`.
   */
  lemma SplitFinals(p: seq<string>, last: string, finals: seq<string>)
    requires last !in p
    ensures var k := KeepIn(p, finals);
      && last !in k
      && KeepIn(p + [last], finals) == k + KeepIn([last], finals)
      && DropIn(k + KeepIn([last], finals), [last]) == k
  {
    var k := KeepIn(p, finals);
    FilterByConcat(p, [last], finals, true);
    FilterByConcat(k, KeepIn([last], finals), [last], false);
    FilterByAllPass(k, [last], false);
    KeepInSingle(last, finals);
    FilterByNonePass(KeepIn([last], finals), [last], false);
  }

  lemma GeneratePreservesInv(e: Editor, inputField: string, auxField: string)
    requires Inv(e)
    ensures Inv(GenerateTable(e, inputField, auxField))
  {
    if Normalize(inputField, auxField).Success? {
      NormalizeShape(inputField, auxField);
    }
  }

  lemma StepPreservesInv(e: Editor, op: Op)
    requires Inv(e)
    ensures Inv(Step(e, op))
  {
    match op
    case AddStateOp(isFinal) => AddPreservesInv(e, isFinal);
    case DeleteLastStateOp => DeletePreservesInv(e);
    case GenerateTableOp(inputField, auxField) => GeneratePreservesInv(e, inputField, auxField);
    case EditCellOp(_, _, _, _) =>
  }

  lemma {:induction false} RunPreservesInv(e: Editor, ops: seq<Op>)
    requires Inv(e)
    ensures Inv(Run(e, ops))
    decreases |ops|
  {
    if |ops| > 0 {
      StepPreservesInv(e, ops[0]);
      RunPreservesInv(Step(e, ops[0]), ops[1..]);
    }
  }

  /**
    Whatever sequence of add, delete, generate and cell edits the user
    performs from the opening page, the states are `q0 .. q(counter-1)` in order,
    without repetition, `q0` first and initial, and the final states are
    states listed in the same order.
   */
  lemma ReachableShape(ops: seq<Op>)
    ensures var e := Run(InitialEditor, ops);
      && |e.machine.states| == e.stateCounter >= 1
      && (forall i | 0 <= i < |e.machine.states| :: e.machine.states[i] == StateName(i))
      && e.machine.states[0] == e.machine.initialState == "q0"
      && NoDup(e.machine.states)
      && NoDup(e.machine.finalStates)
      && (forall s | s in e.machine.finalStates :: s in e.machine.states)
  {
    InitialInv();
    RunPreservesInv(InitialEditor, ops);
    var e := Run(InitialEditor, ops);
    StateNameZero();
    NamedNoDup(e.machine.states);
    FilterByNoDup(e.machine.states, e.machine.finalStates, true);
  }

  /** In every reachable editor, deleting right after adding a state restores the editor exactly. */
  lemma AddThenDelete(e: Editor, isFinal: bool)
    requires Inv(e)
    ensures DeleteLastState(AddState(e, isFinal)) == e
  {
    NextNameFresh(e.machine.states);
    assert StateName(e.stateCounter) !in e.machine.finalStates;
    AddThenDeleteRestores(e, isFinal);
  }

  /**
    Deleting the last state and adding it back with the same finality
    restores the editor exactly: the counter hands out the deleted name again.
   */
  lemma DeleteThenAdd(e: Editor)
    requires Inv(e) && |e.machine.states| > 1
    ensures var last := e.machine.states[|e.machine.states| - 1];
      AddState(DeleteLastState(e), last in e.machine.finalStates) == e
  {
    var states := e.machine.states;
    var n := |states|;
    var last := states[n - 1];
    var d := DeleteLastState(e);
    var k := DeleteKeepsPrefix(e);
    KeepInSingle(last, e.machine.finalStates);
    assert d.stateCounter == n - 1 && last == StateName(n - 1);
    var r := AddState(d, last in e.machine.finalStates);
    assert r.machine.states == states[..n - 1] + [last];
    SplitLast(states);
    assert r.machine.finalStates == e.machine.finalStates;
  }

  /**
    Transitions are never removed with their state: after deleting the last
    state and adding a new one, the new state has the deleted one's name and
    the matrix shows the deleted state's transitions in its row again.
   */
  lemma StaleTransitionsResurface(e: Editor, isFinal: bool)
    requires Inv(e) && |e.machine.states| > 1
    ensures var last := e.machine.states[|e.machine.states| - 1];
      var r := AddState(DeleteLastState(e), isFinal);
      && r.machine.states == e.machine.states
      && r.machine.transitions == e.machine.transitions
      && DeleteLastState(e).machine.transitions == e.machine.transitions
      && (forall a :: CellText(r.machine, last, a) == CellText(e.machine, last, a))
  {
    var states := e.machine.states;
    var n := |states|;
    var last := states[n - 1];
    var d := DeleteLastState(e);
    var k := DeleteKeepsPrefix(e);
    assert d.stateCounter == n - 1 && last == StateName(n - 1);
    var r := AddState(d, isFinal);
    assert r.machine.states == states[..n - 1] + [last];
    SplitLast(states);
    assert r.machine.transitions == e.machine.transitions;
    SameTransitionsSameRow(r.machine, e.machine, last);
  }

  /** A non-empty sequence is its front followed by its last element. */
  lemma SplitLast<T>(s: seq<T>)
    requires |s| > 0
    ensures s == s[..|s| - 1] + [s[|s| - 1]]
  {
  }

  /** Two records with the same transitions show the same cells in every row. */
  lemma SameTransitionsSameRow(c: Config, d: Config, q: string)
    requires c.transitions == d.transitions
    ensures forall a :: CellText(c, q, a) == CellText(d, q, a)
  {
    forall a
      ensures CellText(c, q, a) == CellText(d, q, a)
    {
      CellTextLocal(c, d, q, a);
    }
  }

  /**
    Loading a saved machine restores the editor that saved it: the counter
    reset to the number of states gives back the counter the editor had, and
    so does the repaired reset.
   */
  lemma LoadSavedEditor(e: Editor)
    requires Inv(e) && e.tableGenerated
    ensures Load(e.machine) == e
    ensures LoadRepaired(e.machine) == e
  {
    LoadRepairedAgrees(e);
  }

  /**
    After loading a record whose states are `q0 .. q(n-1)`, the next added
    state gets a name not already in use. Other records can make it reuse a
    name (`Machine.LoadReusesName`).
   */
  lemma LoadThenAddFresh(c: Config)
    requires NamedInOrder(c.states)
    ensures StateName(Load(c).stateCounter) !in c.states
    ensures Load(c).tableGenerated
  {
    NextNameFresh(c.states);
  }

  /**
    On every record a reachable editor saves, the repaired counter reset
    agrees with the one the code performs.
   */
  lemma LoadRepairedAgrees(e: Editor)
    requires Inv(e)
    ensures LoadRepaired(e.machine) == Load(e.machine)
  {
    var states, finals := e.machine.states, e.machine.finalStates;
    var n := |states|;
    forall x | x in states + finals
      ensures NumberOfName(x) < n
    {
      assert x in states;
      var i :| 0 <= i < n && states[i] == x;
      NumberOfStateName(i);
    }
    NextFreeCounterAtMost(states + finals, n);
    NumberOfStateName(n - 1);
    assert states[n - 1] in states + finals;
  }

  /**
    Pressing generate table after a load, with the fields as the load fills
    them in (the input alphabet joined, the recovered auxiliary symbols),
    leaves the loaded editor unchanged.
   */
  lemma RegenerateAfterLoad(c: Config)
    requires WellFormed(c.alphabet, c.tapeAlphabet)
    ensures GenerateTable(Load(c), c.alphabet, AuxiliaryOf(c.alphabet, c.tapeAlphabet)) == Load(c)
    ensures GenerateTable(LoadRepaired(c), c.alphabet, AuxiliaryOf(c.alphabet, c.tapeAlphabet)) == LoadRepaired(c)
  {
    RegenerateFromRecoveredFields(c.alphabet, c.tapeAlphabet);
  }
}

=== FILE: statenames.dfy ===
/**
  State identifiers. The editor names a new state with the template literal
  `q${stateCounter}`, i.e. the letter `q` followed by the decimal rendering
  of the counter (a JavaScript number that only ever holds integers here).
 */
module StateNames {

  predicate IsDigitChar(c: char) {
    '0' <= c <= '9'
  }

  /** The ASCII digit for `d`. */
  function Digit(d: nat): (c: char)
    requires d < 10
    ensures IsDigitChar(c)
    ensures (c as int) - ('0' as int) == d
  {
    (48 + d) as char
  }

  /** The value of a digit character. */
  function DigitValue(c: char): int {
    (c as int) - ('0' as int)
  }

  /** Reference reading of a digit string, most significant digit first. */
  function DecimalValue(s: string): (v: int)
    ensures (forall i | 0 <= i < |s| :: IsDigitChar(s[i])) ==> v >= 0
  {
    if |s| == 0 then 0 else 10 * DecimalValue(s[..|s| - 1]) + DigitValue(s[|s| - 1])
  }

  /**
    Shortest decimal rendering of a natural number, most significant digit
    first: the digits read back as `n`, and only zero starts with `0`.
   */
  function NatToDecimal(n: nat): (s: string)
    ensures |s| >= 1
    ensures forall i | 0 <= i < |s| :: IsDigitChar(s[i])
    ensures DecimalValue(s) == n
    ensures s[0] == '0' <==> n == 0
    ensures n < 10 <==> |s| == 1
    ensures DigitValue(s[|s| - 1]) == n % 10
  {
    if n < 10 then [Digit(n)]
    else
      var p := NatToDecimal(n / 10);
      assert (p + [Digit(n % 10)])[..|p|] == p;
      p + [Digit(n % 10)]
  }

  /** How JavaScript renders an integer-valued number in a template literal. */
  function IntToDecimal(n: int): (s: string)
    ensures |s| >= 1
    ensures n < 0 <==> s[0] == '-'
  {
    if n < 0 then "-" + NatToDecimal(-n) else NatToDecimal(n)
  }

  /** `q${n}`. */
  function StateName(n: int): (name: string)
    ensures |name| >= 2 && name[0] == 'q'
  {
    "q" + IntToDecimal(n)
  }

  /** Different numbers have different decimal renderings. */
  lemma {:induction false} NatToDecimalInjective(a: nat, b: nat)
    requires NatToDecimal(a) == NatToDecimal(b)
    ensures a == b
  {
    var s := NatToDecimal(a);
    if a >= 10 && b >= 10 {
      assert NatToDecimal(a / 10) == s[..|s| - 1] == NatToDecimal(b / 10);
      NatToDecimalInjective(a / 10, b / 10);
    }
  }

  /** Different counters give different state names, so names are never reused for another counter value. */
  lemma StateNameInjective(a: int, b: int)
    requires StateName(a) == StateName(b)
    ensures a == b
  {
    DropFirst("q", IntToDecimal(a));
    DropFirst("q", IntToDecimal(b));
    IntToDecimalInjective(a, b);
  }

  /** Different integers have different renderings: the sign and then the digits tell them apart. */
  lemma IntToDecimalInjective(a: int, b: int)
    requires IntToDecimal(a) == IntToDecimal(b)
    ensures a == b
  {
    if a < 0 {
      assert b < 0;
      DropFirst("-", NatToDecimal(-a));
      DropFirst("-", NatToDecimal(-b));
      NatToDecimalInjective(-a, -b);
    } else {
      assert b >= 0;
      NatToDecimalInjective(a, b);
    }
  }

  /** Removing a one-character prefix. */
  lemma DropFirst(p: string, s: string)
    requires |p| == 1
    ensures (p + s)[1..] == s
  {
  }

  /** The number a name of the form `q<digits>` carries, or -1 for any other name. */
  function NumberOfName(name: string): (k: int)
    ensures k >= -1
  {
    if |name| >= 2 && name[0] == 'q' && forall i | 1 <= i < |name| :: IsDigitChar(name[i])
    then DecimalValue(name[1..])
    else -1
  }

  /** Reading the number back out of `q<n>`. */
  lemma NumberOfStateName(n: nat)
    ensures NumberOfName(StateName(n)) == n
  {
    var d := NatToDecimal(n);
    DropFirst("q", d);
    assert StateName(n) == "q" + d;
    assert StateName(n)[1..] == d;
    assert forall i | 1 <= i < |StateName(n)| :: StateName(n)[i] == d[i - 1];
  }

  /** The initial state of a fresh editor is `q0`. */
  lemma StateNameZero()
    ensures StateName(0) == "q0"
  {
  }

  lemma StateNameTwo()
    ensures StateName(2) == "q2"
  {
  }
}

=== FILE: table.dfy ===
/**
  The editable transition table, derived from the model every time it is
  rebuilt (after generate table, add state, delete state and load): the tape
  symbols in display order with `^` first, and one row per (non-final state,
  symbol) pair.
 */
module Table {
  import opened Seqs
  import opened Alphabet
  import opened Machine

  /**
    The display order of the tape alphabet: the first `^` (found with
    `indexOf`) is spliced out and put in front; the other symbols keep their
    relative order. Without a `^` the alphabet is shown as stored.
   */
  function CaretFirst(tape: seq<char>): (r: seq<char>)
    ensures multiset(r) == multiset(tape)
    ensures |r| == |tape|
    ensures Caret in tape ==> r[0] == Caret
    ensures Caret !in tape ==> r == tape
    ensures DropIn(r, [Caret]) == DropIn(tape, [Caret])
  {
    var i := IndexOf(tape, Caret);
    if i > -1 then
      CaretFirstFacts(tape, i);
      [Caret] + (tape[..i] + tape[i + 1..])
    else tape
  }

  /** Moving the element at index `i` to the front permutes and keeps the order of the rest. */
  lemma CaretFirstFacts(tape: seq<char>, i: int)
    requires 0 <= i < |tape| && tape[i] == Caret
    ensures var r := [Caret] + (tape[..i] + tape[i + 1..]);
      multiset(r) == multiset(tape) && DropIn(r, [Caret]) == DropIn(tape, [Caret])
  {
    assert tape == tape[..i] + [Caret] + tape[i + 1..];
    MoveToFrontMultiset(tape[..i], Caret, tape[i + 1..]);
    MoveToFrontDrop(tape[..i], Caret, tape[i + 1..]);
  }

  lemma MoveToFrontMultiset(p: seq<char>, x: char, q: seq<char>)
    ensures multiset([x] + (p + q)) == multiset(p + [x] + q)
  {
  }

  lemma MoveToFrontDrop(p: seq<char>, x: char, q: seq<char>)
    ensures DropIn([x] + (p + q), [x]) == DropIn(p + [x] + q, [x])
  {
    FilterByConcat(p + [x], q, [x], false);
    FilterByConcat(p, [x], [x], false);
    FilterByConcat([x], p + q, [x], false);
    FilterByConcat(p, q, [x], false);
    FilterByNonePass([x], [x], false);
  }

  /** In a well-formed tape alphabet the display order is `^`, input symbols, auxiliary symbols, `_`. */
  lemma CaretFirstOfWellFormed(alphabet: seq<char>, tape: seq<char>)
    requires WellFormed(alphabet, tape)
    ensures CaretFirst(tape) == [Caret] + alphabet + AuxiliaryOf(alphabet, tape) + [Blank]
  {
    var body := alphabet + AuxiliaryOf(alphabet, tape);
    assert Caret !in body;
    CaretFirstOfLayout(body);
  }

  /** A tape alphabet laid out as `body`, `^`, `_` with no `^` in `body` is shown as `^`, `body`, `_`. */
  lemma CaretFirstOfLayout(body: seq<char>)
    requires Caret !in body
    ensures CaretFirst(body + [Caret, Blank]) == [Caret] + body + [Blank]
  {
    var tape := body + [Caret, Blank];
    assert tape[..|body|] == body;
    IndexOfUnique(tape, Caret, |body|);
    assert tape[|body| + 1..] == [Blank];
  }

  /** The rows for one state, one per displayed symbol. */
  function StateRows(state: string, symbols: seq<char>): (rows: seq<(string, char)>)
    ensures |rows| == |symbols|
    ensures forall j | 0 <= j < |symbols| :: rows[j] == (state, symbols[j])
  {
    seq(|symbols|, j requires 0 <= j < |symbols| => (state, symbols[j]))
  }

  /**
    The rows `buildTransitionTable` creates, in creation order: walk the
    states, skip the ones listed as final, emit a row for every symbol.
   */
  function BuildRows(states: seq<string>, finals: seq<string>, symbols: seq<char>): seq<(string, char)> {
    if |states| == 0 then []
    else
      (if states[0] in finals then [] else StateRows(states[0], symbols))
      + BuildRows(states[1..], finals, symbols)
  }

  /** The editable table of a configuration. */
  function EditableRows(c: Config): seq<(string, char)> {
    BuildRows(c.states, c.finalStates, CaretFirst(c.tapeAlphabet))
  }

  /** Reference definition: the row-major product of a state list and a symbol list. */
  function Product(ss: seq<string>, symbols: seq<char>): seq<(string, char)> {
    if |ss| == 0 then [] else StateRows(ss[0], symbols) + Product(ss[1..], symbols)
  }

  /** Skipping final states while building equals building over the non-final states. */
  lemma {:induction false} BuildRowsIsProduct(states: seq<string>, finals: seq<string>, symbols: seq<char>)
    ensures BuildRows(states, finals, symbols) == Product(DropIn(states, finals), symbols)
  {
    if |states| > 0 {
      var s0, tail := states[0], states[1..];
      BuildRowsIsProduct(tail, finals, symbols);
      DropInFront(states, finals);
      if s0 !in finals {
        ProductCons(s0, DropIn(tail, finals), symbols);
      }
    }
  }

  /** One step of the filter on a non-empty list. */
  lemma DropInFront(s: seq<string>, excluded: seq<string>)
    requires |s| > 0
    ensures s[0] in excluded ==> DropIn(s, excluded) == DropIn(s[1..], excluded)
    ensures s[0] !in excluded ==> DropIn(s, excluded) == [s[0]] + DropIn(s[1..], excluded)
  {
    if s[0] in excluded {
      assert [] + DropIn(s[1..], excluded) == DropIn(s[1..], excluded);
    }
  }

  /** Unfolding the product once at the front. */
  lemma ProductCons(s: string, ss: seq<string>, symbols: seq<char>)
    ensures Product([s] + ss, symbols) == StateRows(s, symbols) + Product(ss, symbols)
  {
    assert ([s] + ss)[1..] == ss;
  }

  /** The product has `|ss| * |symbols|` rows. */
  lemma {:induction false} ProductLength(ss: seq<string>, symbols: seq<char>)
    ensures |Product(ss, symbols)| == |ss| * |symbols|
  {
    if |ss| > 0 {
      ProductLength(ss[1..], symbols);
      assert |ss| * |symbols| == |symbols| + (|ss| - 1) * |symbols|;
    }
  }

  /** Row `i * |symbols| + j` of the product is `(ss[i], symbols[j])`. */
  lemma {:induction false} ProductIndex(ss: seq<string>, symbols: seq<char>, i: int, j: int)
    requires 0 <= i < |ss| && 0 <= j < |symbols|
    ensures i * |symbols| + j < |Product(ss, symbols)|
    ensures Product(ss, symbols)[i * |symbols| + j] == (ss[i], symbols[j])
  {
    var k := |symbols|;
    ProductLength(ss, symbols);
    var head, rest := StateRows(ss[0], symbols), Product(ss[1..], symbols);
    assert Product(ss, symbols) == head + rest;
    if i > 0 {
      ProductIndex(ss[1..], symbols, i - 1, j);
      MulStep(i, k, j);
      assert Product(ss, symbols)[i * k + j] == rest[(i - 1) * k + j];
    } else {
      assert i * k + j == j;
    }
  }

  /** Row offsets: skipping one block of `k` rows. */
  lemma MulStep(i: int, k: int, j: int)
    requires i > 0
    ensures i * k + j == k + ((i - 1) * k + j)
  {
  }

  /** A pair is a row of the product exactly when its state and symbol are in the two lists. */
  lemma {:induction false} ProductMembership(ss: seq<string>, symbols: seq<char>, s: string, a: char)
    ensures (s, a) in Product(ss, symbols) <==> s in ss && a in symbols
  {
    if |ss| > 0 {
      ProductMembership(ss[1..], symbols, s, a);
      var head := StateRows(ss[0], symbols);
      if s == ss[0] && a in symbols {
        var j :| 0 <= j < |symbols| && symbols[j] == a;
        assert head[j] == (s, a);
      }
      assert ss == [ss[0]] + ss[1..];
    }
  }

  /** The editable table has |non-final states| * |tape alphabet| rows. */
  lemma EditableRowsCount(c: Config)
    ensures |EditableRows(c)| == |DropIn(c.states, c.finalStates)| * |c.tapeAlphabet|
  {
    var symbols := CaretFirst(c.tapeAlphabet);
    BuildRowsIsProduct(c.states, c.finalStates, symbols);
    ProductLength(DropIn(c.states, c.finalStates), symbols);
  }

  /**
    Rows come state by state in the order of `states`, and within a state
    in display order: row `i * k + j` is (i-th non-final state, j-th symbol).
   */
  lemma EditableRowsAt(c: Config, i: int, j: int)
    requires 0 <= i < |DropIn(c.states, c.finalStates)| && 0 <= j < |c.tapeAlphabet|
    ensures var symbols := CaretFirst(c.tapeAlphabet);
      && i * |symbols| + j < |EditableRows(c)|
      && EditableRows(c)[i * |symbols| + j] == (DropIn(c.states, c.finalStates)[i], symbols[j])
  {
    var symbols := CaretFirst(c.tapeAlphabet);
    BuildRowsIsProduct(c.states, c.finalStates, symbols);
    ProductIndex(DropIn(c.states, c.finalStates), symbols, i, j);
  }

  /** A pair is a row exactly when its state is a non-final state and its symbol a tape symbol. */
  lemma EditableRowsMembership(c: Config, s: string, a: char)
    ensures (s, a) in EditableRows(c) <==> s in c.states && s !in c.finalStates && a in c.tapeAlphabet
  {
    var symbols := CaretFirst(c.tapeAlphabet);
    BuildRowsIsProduct(c.states, c.finalStates, symbols);
    ProductMembership(DropIn(c.states, c.finalStates), symbols, s, a);
    assert a in symbols <==> a in multiset(symbols);
  }
}

=== FILE: tapeinput.dfy ===
/**
  The filter applied to the tape-input field on every edit
  (`validateTapeInput`): characters outside the input alphabet are removed,
  and the distinct removed characters are named in a warning.
 */
module TapeInput {
  import opened Seqs

  /** The field's new value and the distinct rejected characters (empty: no warning). */
  datatype Outcome = Outcome(value: string, removed: seq<char>)

  /**
    With no input alphabet the field is left alone. Otherwise the field keeps
    exactly its characters that belong to the alphabet, in order; if that
    changed the field, the rejected characters are reported once each, in
    the order of their first occurrence.
   */
  function ValidateTapeInput(alphabet: seq<char>, current: string): (r: Outcome)
    ensures |alphabet| == 0 ==> r == Outcome(current, [])
    ensures forall ch {:trigger ch in r.value} :: ch in r.value <==> ch in current && (|alphabet| == 0 || ch in alphabet)
    ensures forall ch {:trigger ch in r.removed} :: ch in r.removed <==> |alphabet| > 0 && ch in current && ch !in alphabet
    ensures NoDup(r.removed)
    ensures InFirstOccurrenceOrder(r.removed, current)
  {
    if |alphabet| == 0 then Outcome(current, [])
    else
      var valid := KeepIn(current, alphabet);
      if valid != current then
        RemovedInOrder(alphabet, current);
        Outcome(valid, Dedup(DropIn(current, alphabet)))
      else Outcome(current, [])
  }

  /** The elements of `d` come in the order in which they first occur in `s`. */
  predicate InFirstOccurrenceOrder(d: seq<char>, s: string) {
    forall i, j | 0 <= i < j < |d| :: IndexOf(s, d[i]) < IndexOf(s, d[j])
  }

  /** The distinct rejected characters come in the order of their first occurrence in the field. */
  lemma RemovedInOrder(alphabet: seq<char>, current: string)
    ensures InFirstOccurrenceOrder(Dedup(DropIn(current, alphabet)), current)
  {
    var dropped := DropIn(current, alphabet);
    var d := Dedup(dropped);
    DedupFirstOccurrence(dropped);
    forall i, j | 0 <= i < j < |d|
      ensures IndexOf(current, d[i]) < IndexOf(current, d[j])
    {
      assert d[i] in d && d[j] in d;
      DropInIndexOrder(current, alphabet, d[i], d[j]);
    }
  }

  /** Filtering out the members of `excluded` keeps the relative order of first occurrences. */
  lemma {:induction false} DropInIndexOrder(s: string, excluded: seq<char>, x: char, y: char)
    requires x in s && y in s && x !in excluded && y !in excluded
    requires IndexOf(DropIn(s, excluded), x) < IndexOf(DropIn(s, excluded), y)
    ensures IndexOf(s, x) < IndexOf(s, y)
  {
    var rest := DropIn(s[1..], excluded);
    if s[0] != x && s[0] != y {
      assert x in s[1..] && y in s[1..];
      if s[0] in excluded {
        assert DropIn(s, excluded) == rest;
      } else {
        assert DropIn(s, excluded) == [s[0]] + rest;
        assert IndexOf([s[0]] + rest, x) == IndexOf(rest, x) + 1 by {
          assert ([s[0]] + rest)[1..] == rest;
        }
        assert IndexOf([s[0]] + rest, y) == IndexOf(rest, y) + 1 by {
          assert ([s[0]] + rest)[1..] == rest;
        }
      }
      DropInIndexOrder(s[1..], excluded, x, y);
    }
  }

  /** The kept characters are a subsequence of the typed ones, never longer. */
  lemma ValidateKeepsOrder(alphabet: seq<char>, current: string)
    ensures IsSubseq(ValidateTapeInput(alphabet, current).value, current)
    ensures |ValidateTapeInput(alphabet, current).value| <= |current|
  {
    if |alphabet| == 0 {
      SubseqRefl(current);
    } else {
      FilterBySubseq(current, alphabet, true);
    }
  }

  /** Every sequence is a subsequence of itself. */
  lemma {:induction false} SubseqRefl(s: string)
    ensures IsSubseq(s, s)
  {
    if |s| > 0 {
      SubseqRefl(s[1..]);
    }
  }

  /** The field changes exactly when it held a character outside a non-empty alphabet, and then a warning is shown. */
  lemma ValidateChangesIffInvalid(alphabet: seq<char>, current: string)
    ensures var r := ValidateTapeInput(alphabet, current);
      && (r.value != current <==> |alphabet| > 0 && exists ch :: ch in current && ch !in alphabet)
      && (r.removed != [] <==> r.value != current)
  {
    var r := ValidateTapeInput(alphabet, current);
    if |alphabet| > 0 {
      if forall x | x in current :: x in alphabet {
        FilterByAllPass(current, alphabet, true);
      } else {
        var ch :| ch in current && ch !in alphabet;
        assert ch in r.removed;
      }
    }
  }

  /** Validating an already validated field changes nothing and warns about nothing. */
  lemma ValidateIdempotent(alphabet: seq<char>, current: string)
    ensures var once := ValidateTapeInput(alphabet, current).value;
      ValidateTapeInput(alphabet, once) == Outcome(once, [])
  {
    if |alphabet| > 0 {
      FilterByIdempotent(current, alphabet, true);
    }
  }

  /**
    Filtering works character by character: the value kept from a pasted
    text is what typing its two parts one after the other would keep.
   */
  lemma ValidateConcat(alphabet: seq<char>, a: string, b: string)
    ensures ValidateTapeInput(alphabet, a + b).value
         == ValidateTapeInput(alphabet, a).value + ValidateTapeInput(alphabet, b).value
  {
    if |alphabet| > 0 {
      FilterByConcat(a, b, alphabet, true);
      FilterByLength(a + b, alphabet, true);
      FilterByLength(a, alphabet, true);
      FilterByLength(b, alphabet, true);
    }
  }
}

=== FILE: wrappers.dfy ===
/** Optional values and success/failure results used across the model. */
module Wrappers {

  /** Either a value or the error that prevented computing it. */
  datatype Result<+R, +E> = Success(value: R) | Failure(error: E)

  /** A value that may be absent. */
  datatype Option<+T> = None | Some(value: T)
}
